=== FILE: README.md ===
# Reed-Solomon error correction for QR Code, modelled in Dafny

This project models the Reed-Solomon encoder that a QR Code 2005 generator
uses to compute its error correction codewords (section 6.5.2 of
ISO/IEC 18004). It has two parts:

- a polynomial engine over GF(2^8) (`gf_poly.go`);
- the systematic encoder built on that engine (`reed_solomon.go`).

The encoder works in four steps:

1. It reads the data bits as a polynomial, one byte per term, with the
   first byte as the highest term.
2. It multiplies that polynomial by x^n, where n is the number of error
   correction bytes.
3. It divides by the generator polynomial (x + a^0)(x + a^1)...(x + a^(n-1)).
4. It appends the n bytes of the remainder to an unchanged copy of the data
   bits.

The project has four modules:

- `GF` (`gf.dfy`): the field GF(2^8) modulo x^8 + x^4 + x^3 + x^2 + 1. The
  polynomial code calls its addition, multiplication, division and exponent
  table, but the field's own source is not part of this model. Here
  multiplication is the shift-and-add product. The exponent table is built
  by repeated doubling, and the log table is its inverse. Division goes
  through the log tables. The field laws that the polynomial proofs need
  are proved from these definitions. That includes the fact that the
  log-table product formula agrees with shift-and-add.
- `Bitset` (`bitset.dfy`): bit sequences as `seq<bool>`. `ByteAt` reads
  eight bits, most significant first. A shorter final group lands in the
  low bits. `AppendBytes` appends eight bits per byte. The bitset's length
  `Len` is `|bits|`. The bitset package is not part of this model. Of its
  operations the encoder also calls `Clone`, which is listed under
  "## Left out".
- `GFPoly` (`gf_poly.dfy`): a polynomial is its term sequence, with term i
  the coefficient of x^i. `Coef` reads zero past the end. Each operation of
  `gf_poly.go` is a function here. Its contract is stated against the
  coefficients, and a reference definition, an inverse or an invariant goes
  with it.
- `ReedSolomon` (`reed_solomon.go`): the generator polynomial and `Encode`.
  The theorems say the codeword has the promised length and keeps the data
  bits. They also say the codeword's polynomial is the "mathematically
  correct answer" of `reed_solomon.go:44-52`, namely the shifted data plus
  the remainder, and that the generator divides it.

Go panics become preconditions:

- a generator degree below 2;
- `data(n)` with more than n terms;
- division by the zero polynomial.

Where the doc comment of `newGFPolyFromData` (`gf_poly.go:21-26`) says the
last byte is the highest term, the model follows the code and the comment in
`reed_solomon.go:28-32`: the first byte is the highest term.

## Model

| member | source | states |
|---|---|---|
| GF.Add | go_src/package/reedsolomon/gf_poly.go:165 | definition of field addition (exclusive-or); its laws are the rows GFPoly.AddLaws and GFPoly.AddCancel |
| GF.Multiply | go_src/package/reedsolomon/gf_poly.go:113 | definition of field multiplication (shift-and-add modulo 0x11D); its laws are the rows GF.MultiplyByLogs, GF.MultiplyCommutative, GF.MultiplyAssociative, GF.MultiplyDistributes and GF.NoZeroDivisors |
| GF.Exp | go_src/package/reedsolomon/reed_solomon.go:73 | definition of the exponent table a^i by repeated doubling; its law is the row GF.ExpNonzero, and GF.MultiplyByLogs ties it to multiplication |
| GF.MultiplyByLogs | go_src/package/reedsolomon/gf_poly.go:113 | the product of two nonzero elements is the exponent table at (log x + log y) mod 255, the table formula for field multiplication |
| GF.Divide | go_src/package/reedsolomon/gf_poly.go:136-137 | for a nonzero divisor y the quotient times y gives back x, and the quotient is zero exactly when x is zero |
| GF.NoZeroDivisors | go_src/package/reedsolomon/gf_poly.go:107-113 | a product of field elements is zero exactly when one factor is zero, so the skipped zero pairs are the only zero contributions |
| GF.MultiplyCommutative | go_src/package/reedsolomon/gf_poly.go:113 | field multiplication does not depend on the order of its operands |
| GF.MultiplyAssociative | go_src/package/reedsolomon/gf_poly.go:113 | field multiplication is associative |
| GF.MultiplyDistributes | go_src/package/reedsolomon/gf_poly.go:113 | field multiplication distributes over field addition (exclusive-or) |
| GF.ExpNonzero | go_src/package/reedsolomon/reed_solomon.go:73 | every entry a^i of the exponent table is nonzero |
| Bitset.AppendBytes | go_src/package/reedsolomon/reed_solomon.go:54-56 | appending bytes adds eight bits per byte, keeps the original bits as a prefix, and each appended byte reads back whole at its bit offset |
| Bitset.ByteAt | go_src/package/reedsolomon/gf_poly.go:37 | definition of reading up to eight bits, most significant first, with a shorter final group in the low bits; its law is the row Bitset.ByteAtBytesToBits |
| Bitset.ByteAtBytesToBits | go_src/package/reedsolomon/gf_poly.go:37 | the k-th byte of a byte sequence's bits, read back at bit offset 8k, is the byte itself |
| GFPoly.Normalised | go_src/package/reedsolomon/gf_poly.go:176-195 | the result has no zero highest term, is a prefix of the input, and every dropped term is zero |
| GFPoly.NormalisedSame | go_src/package/reedsolomon/gf_poly.go:176-195 | normalising is idempotent, and two polynomials normalise to the same terms exactly when all their coefficients agree |
| GFPoly.Add | go_src/package/reedsolomon/gf_poly.go:151-174 | the sum is normalised, has at most as many terms as the longer operand, and each coefficient is the field sum of the zero-extended operands' coefficients |
| GFPoly.AddLaws | go_src/package/reedsolomon/gf_poly.go:151-174 | addition is commutative, and a polynomial added to itself is the empty polynomial |
| GFPoly.AddCancel | go_src/package/reedsolomon/gf_poly.go:151-174 | adding b and then adding b again gives back a, normalised: addition is its own inverse |
| GFPoly.Monomial | go_src/package/reedsolomon/gf_poly.go:44-54 | term times x^degree is empty for a zero term, and otherwise has degree + 1 terms with only the coefficient of x^degree nonzero |
| GFPoly.Equals | go_src/package/reedsolomon/gf_poly.go:222-251 | the two-loop comparison holds exactly when every coefficient agrees after zero extension |
| GFPoly.EqualsNormalised | go_src/package/reedsolomon/gf_poly.go:222-251 | equality holds exactly when the normalised forms are identical; it is reflexive and symmetric |
| GFPoly.EqualsEmptyZeros | go_src/package/reedsolomon/gf_poly.go:238-250 | the empty polynomial equals any all-zero one, whichever side it is on |
| GFPoly.Data | go_src/package/reedsolomon/gf_poly.go:56-66 | for numTerms at least the term count, exactly numTerms bytes with the coefficient of x^(numTerms-1-i) at position i, so the leading bytes are zero padding |
| GFPoly.FromData | go_src/package/reedsolomon/gf_poly.go:27-42 | one term per started byte of the bits (the length is the bit count divided by 8, rounded up), with the byte read at bit offset 8i becoming the term of x^(terms-1-i) |
| GFPoly.FromDataBytes | go_src/package/reedsolomon/gf_poly.go:27-42 | the polynomial read from whole bytes is those bytes in reverse order, so the first byte is the highest term |
| GFPoly.DataRoundTrip | go_src/package/reedsolomon/gf_poly.go:27-66 | writing a polynomial out as numTerms bytes and reading those bytes back gives the same polynomial up to normalisation |
| GFPoly.Multiply | go_src/package/reedsolomon/gf_poly.go:73-121 | the product accumulated pair by pair is normalised, and its coefficient of x^k is the convolution sum of a_m * b_(k-m) over m <= k |
| GFPoly.MultiplyCommutative | go_src/package/reedsolomon/gf_poly.go:73-121 | the product does not depend on the order of the factors |
| GFPoly.MultiplyEmpty | go_src/package/reedsolomon/gf_poly.go:82-120 | multiplying by the empty polynomial on either side gives the empty polynomial |
| GFPoly.ProductMonomial | go_src/package/reedsolomon/gf_poly.go:140-141 | multiplying by term times x^degree scales each coefficient by term and moves it up by degree, leaving zeros below |
| GFPoly.ShiftCoef | go_src/package/reedsolomon/reed_solomon.go:34-36 | after multiplying by x^n, the coefficient of x^(i+n) is the original coefficient of x^i, and every coefficient below x^n is zero |
| GFPoly.ProductDegree | go_src/package/reedsolomon/gf_poly.go:73-121 | a product of nonzero normalised polynomials has len a + len b - 1 terms, and its highest term is the product of the highest terms |
| GFPoly.ReduceStep | go_src/package/reedsolomon/gf_poly.go:132-145 | one division step cancels the remainder's highest term, so the term count strictly decreases and the loop terminates |
| GFPoly.Remainder | go_src/package/reedsolomon/gf_poly.go:123-148 | for a nonzero normalised divisor the remainder is normalised and has fewer terms than the divisor |
| GFPoly.DivisionIdentity | go_src/package/reedsolomon/gf_poly.go:123-148 | the divisor times the quotient, plus the remainder, is the numerator; the quotient is a proof device, the sum of the monomials c x^d that the division steps multiply the divisor by, which the library builds one at a time and discards without ever summing |
| GFPoly.RemainderUnique | go_src/package/reedsolomon/gf_poly.go:123-148 | any normalised r shorter than the divisor that differs from the numerator by a multiple of the divisor is the remainder |
| GFPoly.RemainderSelf | go_src/package/reedsolomon/gf_poly.go:123-148 | a nonzero normalised polynomial divided by itself leaves the empty remainder |
| ReedSolomon.EvalFactor | go_src/package/reedsolomon/reed_solomon.go:73-74 | for a nonzero normalised p, evaluating p times the factor [c, 1] at x gives (x + c) times p's value at x |
| ReedSolomon.Factor | go_src/package/reedsolomon/reed_solomon.go:73 | definition of the linear factor x + c as the two terms [c, 1], lowest first; its law is the row ReedSolomon.EvalFactor |
| ReedSolomon.GeneratorStep | go_src/package/reedsolomon/reed_solomon.go:72-75 | multiplying by x + a^i keeps the loop invariant with one more root: i + 2 terms, leading term 1, and roots a^0 .. a^i |
| ReedSolomon.GeneratorPoly | go_src/package/reedsolomon/reed_solomon.go:61-78 | for degree at least 2, the generator is normalised, has degree + 1 terms and leading term 1, and vanishes at a^j for every j < degree |
| ReedSolomon.Shifted | go_src/package/reedsolomon/reed_solomon.go:34-36 | definition of the data polynomial times x^numECBytes; its law is the row GFPoly.ShiftCoef |
| ReedSolomon.ECRemainder | go_src/package/reedsolomon/reed_solomon.go:39-42 | the remainder modulo the generator has at most numECBytes terms, so writing it out as numECBytes bytes is well defined |
| ReedSolomon.ECBytes | go_src/package/reedsolomon/reed_solomon.go:56 | definition of the error correction bytes as the remainder written out as numECBytes bytes; its laws are the rows GFPoly.Data and ReedSolomon.EncodeECByte |
| ReedSolomon.Encode | go_src/package/reedsolomon/reed_solomon.go:27-59 | the codeword is the data length plus 8 * numECBytes bits long, and its first bits are the data bits unchanged, leading zero bits included |
| ReedSolomon.EncodeECByte | go_src/package/reedsolomon/reed_solomon.go:54-56 | the k-th appended byte is the remainder's coefficient of x^(numECBytes-1-k) |
| ReedSolomon.CodewordCoef | go_src/package/reedsolomon/reed_solomon.go:44-56 | for byte-aligned data, each coefficient of the codeword's polynomial is the shifted data's coefficient plus the remainder's |
| ReedSolomon.EncodeIsPolynomialSum | go_src/package/reedsolomon/reed_solomon.go:44-56 | for byte-aligned data, the codeword read as a polynomial is the polynomial sum of the shifted data and the remainder, the mathematically correct answer |
| ReedSolomon.EncodeDivisible | go_src/package/reedsolomon/reed_solomon.go:27-59 | for byte-aligned data, the codeword's polynomial leaves the empty remainder when divided by the generator (with GFPoly.DivisionIdentity, it is the generator times the quotient) |

## Left out

- The `perrcheck` and `errcheck` helpers, every call to them, and the `fmt.Sprint` calls in `gfPolyMultiply` are not modelled. They do not change any computed value, but they have two effects on the process. When the log file cannot be opened they call `log.Fatalf`, which ends the process, so `Encode` never returns in a directory it cannot write to. They also redirect the process's standard logger to a file that is closed when the helper returns. The model assumes every call returns normally.
- `gfPoly.string` is diagnostic pretty-printing and has no effect on encoding.
- `qrlogo.go` is image overlay and PNG output, not part of the encoder.
- `numTerms` is the length of the term sequence, written `|p|` throughout.
- The field helpers `gfAdd`, `gfMultiply`, `gfDivide`, `gfExpTable` and `gfLogTable` are not part of this model's source. `GF` defines them concretely, so the model relies on the standard field rather than on the library's tables.
- The bitset package is not part of this model. `ByteAt` of a final group shorter than eight bits is defined as those bits in the low positions. No theorem depends on that choice, because the codeword theorems assume byte-aligned data.
- The length of `gfExpTable` is not modelled: `Exp` is defined for every exponent. The library's table bounds the supported generator degree.
- Go panics are preconditions, not runtime behaviour:
  - a generator degree below 2 (`rsGeneratorPoly`, and so `Encode`);
  - `data(n)` for a polynomial with more than n terms;
  - a zero divisor in field division.
- GFPoly.Remainder: requires a normalised, nonempty divisor. The library stops on a divisor equal to the zero polynomial. A divisor with a zero highest term would reach field division by zero as soon as the loop runs. Only the generator, which is normalised, is ever passed.
- GFPoly.RemainderSelf: stated for a nonzero normalised polynomial only. For one whose highest term is zero, such as [1, 0], the library passes the zero check and then calls `gfDivide(0, 0)` on the two zero highest terms, so it either stops there or returns [1]: remainder(a, a) is not the zero polynomial for every a; it is excluded here like any divisor with a zero highest term.
- ReedSolomon.CodewordCoef, ReedSolomon.EncodeIsPolynomialSum, ReedSolomon.EncodeDivisible: stated for data whose bit length is a multiple of 8. Otherwise the appended bytes straddle byte boundaries, and the codeword's bytes are not the polynomial's terms.
- ReedSolomon.EncodeDivisible: proves that the generator divides the codeword's polynomial, but not that the codeword evaluates to zero at a^0 .. a^(n-1). That would need evaluation of a product, which is proved here only for a single linear factor (`ReedSolomon.EvalFactor`).
- `bitset.Clone` (`reed_solomon.go:54`) and mutation are not modelled: every value here is immutable, so the caller's bits cannot change.

=== FILE: bitset.dfy ===
/**
 The bit sequences the encoder reads its data from and appends its error
 correction bytes to.  A bit sequence is a `seq<bool>`; bit 0 comes first.
 Bytes are read and written most significant bit first, eight bits per
 byte, as QR Code lays out its codewords.
 */
module Bitset {

  type Byte = bv8

  /** The eight bits of b, most significant first. */
  function BitsOf(b: Byte): (bits: seq<bool>)
    ensures |bits| == 8
  {
    [b & 0x80 != 0, b & 0x40 != 0, b & 0x20 != 0, b & 0x10 != 0,
     b & 0x08 != 0, b & 0x04 != 0, b & 0x02 != 0, b & 0x01 != 0]
  }

  /** Shifts bits[i..end] into acc, first bit first: each bit moves the
      byte left by one and becomes its lowest bit. */
  function ShiftIn(bits: seq<bool>, i: nat, end: nat, acc: Byte): Byte
    requires i <= end <= |bits|
    decreases end - i
  {
    if i == end then acc
    else ShiftIn(bits, i + 1, end, (acc << 1) | (if bits[i] then 1 else 0))
  }

  /** The byte made of the (up to) eight bits starting at index: the bits
      of a final, shorter group land in the low positions. */
  function ByteAt(bits: seq<bool>, index: nat): Byte
    requires index < |bits|
  {
    ShiftIn(bits, index, if index + 8 <= |bits| then index + 8 else |bits|, 0)
  }

  /** The bits of a byte sequence, each byte most significant bit first. */
  function BytesToBits(bytes: seq<Byte>): (bits: seq<bool>)
    ensures |bits| == 8 * |bytes|
  {
    if |bytes| == 0 then [] else BitsOf(bytes[0]) + BytesToBits(bytes[1..])
  }

  /** Appending bytes to a bit sequence. */
  function AppendBytes(bits: seq<bool>, bytes: seq<Byte>): (r: seq<bool>)
    ensures |r| == |bits| + 8 * |bytes|
    ensures r[..|bits|] == bits
    ensures forall k :: 0 <= k < |bytes| ==> ByteAt(r, |bits| + 8 * k) == bytes[k]
  {
    var tail := BytesToBits(bytes);
    forall k | 0 <= k < |bytes|
      ensures ByteAt(bits + tail, |bits| + 8 * k) == bytes[k]
    {
      BytesToBitsSlice(bytes, k);
      assert (bits + tail)[|bits| + 8 * k .. |bits| + 8 * k + 8] == tail[8 * k .. 8 * k + 8];
      ShiftInBitsOf(bytes[k], bits + tail, |bits| + 8 * k);
    }
    bits + tail
  }

  /** Reading back the eight bits of a byte gives the byte. */
  lemma ShiftInBitsOf(b: Byte, bits: seq<bool>, i: nat)
    requires i + 8 <= |bits| && bits[i .. i + 8] == BitsOf(b)
    ensures ShiftIn(bits, i, i + 8, 0) == b
  {
    ShiftInSteps(b);
    SliceBits(b, bits, i);
    ShiftInHigh(b, bits, i);
    ShiftInStep(bits, i + 4, i + 8, b >> 4, b & 0x08 != 0, b >> 3);
    ShiftInStep(bits, i + 5, i + 8, b >> 3, b & 0x04 != 0, b >> 2);
    ShiftInStep(bits, i + 6, i + 8, b >> 2, b & 0x02 != 0, b >> 1);
    ShiftInStep(bits, i + 7, i + 8, b >> 1, b & 0x01 != 0, b);
  }

  lemma ShiftInHigh(b: Byte, bits: seq<bool>, i: nat)
    requires i + 8 <= |bits|
    requires bits[i] == (b & 0x80 != 0) && bits[i + 1] == (b & 0x40 != 0)
    requires bits[i + 2] == (b & 0x20 != 0) && bits[i + 3] == (b & 0x10 != 0)
    ensures ShiftIn(bits, i, i + 8, 0) == ShiftIn(bits, i + 4, i + 8, b >> 4)
  {
    ShiftInSteps(b);
    ShiftInStep(bits, i + 0, i + 8, 0, b & 0x80 != 0, b >> 7);
    ShiftInStep(bits, i + 1, i + 8, b >> 7, b & 0x40 != 0, b >> 6);
    ShiftInStep(bits, i + 2, i + 8, b >> 6, b & 0x20 != 0, b >> 5);
    ShiftInStep(bits, i + 3, i + 8, b >> 5, b & 0x10 != 0, b >> 4);
  }

  lemma SliceBits(b: Byte, bits: seq<bool>, i: nat)
    requires i + 8 <= |bits| && bits[i .. i + 8] == BitsOf(b)
    ensures bits[i] == (b & 0x80 != 0) && bits[i + 1] == (b & 0x40 != 0)
    ensures bits[i + 2] == (b & 0x20 != 0) && bits[i + 3] == (b & 0x10 != 0)
    ensures bits[i + 4] == (b & 0x08 != 0) && bits[i + 5] == (b & 0x04 != 0)
    ensures bits[i + 6] == (b & 0x02 != 0) && bits[i + 7] == (b & 0x01 != 0)
  {
    var s := bits[i .. i + 8];
    assert s[0] == bits[i] && s[7] == bits[i + 7];
  }

  lemma ShiftInStep(bits: seq<bool>, i: nat, end: nat, acc: Byte, bit: bool, next: Byte)
    requires i < end <= |bits| && bits[i] == bit
    requires next == (acc << 1) | (if bit then 1 else 0)
    ensures ShiftIn(bits, i, end, acc) == ShiftIn(bits, i + 1, end, next)
  {
  }

  /** Each step of reading a byte back appends its next bit. */
  lemma ShiftInSteps(b: Byte)
    ensures ((0 as Byte) << 1) | (if (b & 0x80 != 0) then 1 else 0) == b >> 7
    ensures ((b >> 7) << 1) | (if (b & 0x40 != 0) then 1 else 0) == b >> 6
    ensures ((b >> 6) << 1) | (if (b & 0x20 != 0) then 1 else 0) == b >> 5
    ensures ((b >> 5) << 1) | (if (b & 0x10 != 0) then 1 else 0) == b >> 4
    ensures ((b >> 4) << 1) | (if (b & 0x08 != 0) then 1 else 0) == b >> 3
    ensures ((b >> 3) << 1) | (if (b & 0x04 != 0) then 1 else 0) == b >> 2
    ensures ((b >> 2) << 1) | (if (b & 0x02 != 0) then 1 else 0) == b >> 1
    ensures ((b >> 1) << 1) | (if (b & 0x01 != 0) then 1 else 0) == b
  {
  }

  lemma {:induction false} BytesToBitsSlice(bytes: seq<Byte>, k: nat)
    requires k < |bytes|
    ensures BytesToBits(bytes)[8 * k .. 8 * k + 8] == BitsOf(bytes[k])
  {
    if k > 0 {
      BytesToBitsSlice(bytes[1..], k - 1);
      assert BytesToBits(bytes)[8 * k .. 8 * k + 8] == BytesToBits(bytes[1..])[8 * (k - 1) .. 8 * (k - 1) + 8];
    }
  }

  /** Shifting in bits that lie inside a prefix ignores what follows it. */
  lemma {:induction false} ShiftInPrefix(bits: seq<bool>, tail: seq<bool>, i: nat, end: nat, acc: Byte)
    requires i <= end <= |bits|
    ensures ShiftIn(bits + tail, i, end, acc) == ShiftIn(bits, i, end, acc)
    decreases end - i
  {
    if i < end {
      assert (bits + tail)[i] == bits[i];
      ShiftInPrefix(bits, tail, i + 1, end, (acc << 1) | (if bits[i] then 1 else 0));
    }
  }

  /** A whole byte inside a prefix reads the same after appending. */
  lemma ByteAtPrefix(bits: seq<bool>, tail: seq<bool>, index: nat)
    requires index + 8 <= |bits|
    ensures ByteAt(bits + tail, index) == ByteAt(bits, index)
  {
    ShiftInPrefix(bits, tail, index, index + 8, 0);
  }

  /** The k-th byte of BytesToBits(bytes) reads back as bytes[k]. */
  lemma ByteAtBytesToBits(bytes: seq<Byte>, k: nat)
    requires k < |bytes|
    ensures ByteAt(BytesToBits(bytes), 8 * k) == bytes[k]
  {
    var r := AppendBytes([], bytes);
    assert r == BytesToBits(bytes);
  }

  /** The appended byte k sits at bit offset |bits| + 8k. */
  lemma ByteAtAppended(bits: seq<bool>, bytes: seq<Byte>, k: nat, offset: nat)
    requires k < |bytes| && offset == |bits| + 8 * k
    ensures offset < |AppendBytes(bits, bytes)|
    ensures ByteAt(AppendBytes(bits, bytes), offset) == bytes[k]
  {
  }
}

=== FILE: gf.dfy ===
/**
 Arithmetic in GF(2^8), the field QR Code 2005 uses for its Reed-Solomon
 codes (section 6.5.2 of ISO/IEC 18004): 8-bit elements, with products
 reduced modulo the primitive polynomial x^8 + x^4 + x^3 + x^2 + 1 (0x11D),
 whose root a (the element 2) generates the 255 nonzero elements.

 The polynomial code calls field helpers (addition, multiplication,
 division and the exponent table) whose own source is not part of this
 model; this module defines them concretely.  Multiplication is the
 shift-and-add product; `Exp` is the exponent table built by repeated
 doubling, `Log` is its inverse, and `MultiplyByLogs` shows that the
 log-table formula for the product gives the same result.  The field laws
 the polynomial engine needs are lemmas about these definitions.
 */
module GF {

  /** A field element: one byte. */
  type Element = bv8

  const Zero: Element := 0
  const One: Element := 1

  /** Field addition is bitwise exclusive-or (and so is subtraction). */
  function Add(x: Element, y: Element): Element
  {
    x ^ y
  }

  /** Multiplication by a: a left shift, reduced by 0x1D (the low byte of
      0x11D) when the shift carries out of bit 7. */
  function XTime(x: Element): Element
  {
    if x & 0x80 == 0 then x << 1 else (x << 1) ^ 0x1D
  }

  /** x when the low bit of y is set, zero otherwise. */
  function LowBitTerm(y: Element, x: Element): Element
  {
    if y & 1 == 0 then Zero else x
  }

  /** Shift-and-add multiplication over the low n bits of y: for each set
      bit j of y, add x * a^j. */
  function MultiplyBits(x: Element, y: Element, n: nat): Element
    decreases n
  {
    if n == 0 then Zero
    else Add(LowBitTerm(y, x), MultiplyBits(XTime(x), y >> 1, n - 1))
  }

  /** The number of bits in an element. */
  const Width: nat := 8

  /** Field multiplication. */
  function Multiply(x: Element, y: Element): Element
  {
    MultiplyBits(x, y, Width)
  }

  /** The exponent table: a^i by repeated doubling from a^0 = 1. */
  function Exp(i: nat): Element
  {
    if i == 0 then One else XTime(Exp(i - 1))
  }

  /** The log table: the least exponent k < 255 with a^k = x, or 255 when
      there is none (only for x = 0, by `LogExp`). */
  function Log(x: Element): (k: nat)
    ensures k <= 255
    ensures k < 255 ==> Exp(k) == x
  {
    LogFrom(x, LogStart)
  }

  /** The log search starts at the exponent of a^0 = 1. */
  const LogStart: nat := 0

  function LogFrom(x: Element, i: nat): (k: nat)
    requires i <= 255
    ensures i <= k <= 255
    ensures k < 255 ==> Exp(k) == x
    decreases 255 - i
  {
    if i == 255 || Exp(i) == x then i else LogFrom(x, i + 1)
  }

  /** Field division through the log tables; division by zero has no
      result, so a nonzero divisor is a precondition here. */
  function Divide(x: Element, y: Element): (r: Element)
    requires y != Zero
    ensures Multiply(r, y) == x
    ensures x == Zero <==> r == Zero
  {
    if x == Zero then
      MultiplyZero(y);
      Zero
    else
      DivideByLogs(x, y);
      ExpNonzero((Log(x) + 255 - Log(y)) % 255);
      Exp((Log(x) + 255 - Log(y)) % 255)
  }

  /** x * a^n. */
  function XTimePow(x: Element, n: nat): Element
    decreases n
  {
    if n == 0 then x else XTime(XTimePow(x, n - 1))
  }

  lemma AddLaws(x: Element, y: Element, z: Element)
    ensures Add(x, y) == Add(y, x)
    ensures Add(Add(x, y), z) == Add(x, Add(y, z))
    ensures Add(x, Zero) == x
    ensures Add(x, x) == Zero
  {
  }

  lemma XTimeNonzero(x: Element)
    requires x != Zero
    ensures XTime(x) != Zero
  {
  }

  lemma {:induction false} ExpNonzero(i: nat)
    ensures Exp(i) != Zero
  {
    if i > 0 {
      ExpNonzero(i - 1);
      XTimeNonzero(Exp(i - 1));
    }
  }

  /** The reduction step is linear: XTime distributes over Add. */
  lemma XTimeLinear(x: Element, y: Element)
    ensures XTime(Add(x, y)) == Add(XTime(x), XTime(y))
  {
    ShiftXor(x, y);
    HighXor(x, y);
    XorCancel(x << 1, y << 1, 0x1D);
  }

  lemma ShiftXor(x: Element, y: Element)
    ensures (x ^ y) << 1 == (x << 1) ^ (y << 1)
    ensures (x ^ y) >> 1 == (x >> 1) ^ (y >> 1)
  {
  }

  lemma HighXor(x: Element, y: Element)
    ensures ((x ^ y) & 0x80 == 0) == ((x & 0x80 == 0) == (y & 0x80 == 0))
    ensures ((x ^ y) & 1 == 0) == ((x & 1 == 0) == (y & 1 == 0))
  {
  }

  lemma XorCancel(a: Element, b: Element, c: Element)
    ensures (a ^ c) ^ (b ^ c) == a ^ b
    ensures (a ^ c) ^ b == (a ^ b) ^ c
    ensures a ^ (b ^ c) == (a ^ b) ^ c
  {
  }

  lemma LowBitAdd(x: Element, y: Element, z: Element)
    ensures LowBitTerm(Add(y, z), x) == Add(LowBitTerm(y, x), LowBitTerm(z, x))
    ensures Add(y, z) >> 1 == Add(y >> 1, z >> 1)
  {
  }

  lemma AddInterchange(a: Element, b: Element, c: Element, d: Element)
    ensures Add(Add(a, b), Add(c, d)) == Add(Add(a, c), Add(b, d))
  {
    assert (a ^ b) ^ (c ^ d) == (a ^ c) ^ (b ^ d);
  }

  lemma {:induction false} MultiplyBitsZero(x: Element, y: Element, n: nat)
    requires x == Zero || y == Zero
    ensures MultiplyBits(x, y, n) == Zero
    decreases n
  {
    if n > 0 {
      MultiplyBitsZero(XTime(x), y >> 1, n - 1);
    }
  }

  lemma MultiplyZero(x: Element)
    ensures Multiply(x, Zero) == Zero && Multiply(Zero, x) == Zero
  {
    MultiplyBitsZero(x, Zero, Width);
    MultiplyBitsZero(Zero, x, Width);
  }

  /** Multiplying 2^(8-n) by y over its low n bits shifts y into place:
      the doublings of 2^(8-n) stay below 0x100, so no reduction occurs. */
  lemma {:induction false} MultiplyShift(y: Element, n: nat)
    requires 1 <= n <= 8
    ensures MultiplyBits((1 as Element) << (8 - n), y, n) == y << (8 - n)
    decreases n
  {
    var c := (1 as Element) << (8 - n);
    if n == 1 {
      assert MultiplyBits(XTime(c), y >> 1, 0) == Zero;
    } else {
      MultiplyShift(y >> 1, n - 1);
      assert XTime(c) == (1 as Element) << (8 - (n - 1));
      assert Add(LowBitTerm(y, c), (y >> 1) << (8 - (n - 1))) == y << (8 - n);
    }
  }

  lemma MultiplyOne(x: Element)
    ensures Multiply(x, One) == x && Multiply(One, x) == x
  {
    MultiplyBitsZero(XTime(x), Zero, 7);
    MultiplyShift(x, Width);
  }

  lemma {:induction false} MultiplyBitsXTime(x: Element, y: Element, n: nat)
    ensures MultiplyBits(XTime(x), y, n) == XTime(MultiplyBits(x, y, n))
    decreases n
  {
    if n > 0 {
      MultiplyBitsXTime(XTime(x), y >> 1, n - 1);
      XTimeStep(x, y, MultiplyBits(XTime(x), y >> 1, n - 1), MultiplyBits(XTime(XTime(x)), y >> 1, n - 1));
    }
  }

  lemma XTimeStep(x: Element, y: Element, rest: Element, rest': Element)
    requires rest' == XTime(rest)
    ensures Add(LowBitTerm(y, XTime(x)), rest') == XTime(Add(LowBitTerm(y, x), rest))
  {
    XTimeLowBit(y, x);
    XTimeLinear(LowBitTerm(y, x), rest);
  }

  lemma XTimeLowBit(y: Element, x: Element)
    ensures XTime(LowBitTerm(y, x)) == LowBitTerm(y, XTime(x))
  {
  }

  /** Multiplying by a commutes with multiplying by y. */
  lemma MultiplyXTime(x: Element, y: Element)
    ensures Multiply(XTime(x), y) == XTime(Multiply(x, y))
  {
    MultiplyBitsXTime(x, y, Width);
  }

  lemma {:induction false} MultiplyBitsDistributes(x: Element, y: Element, z: Element, n: nat)
    ensures MultiplyBits(x, Add(y, z), n) == Add(MultiplyBits(x, y, n), MultiplyBits(x, z, n))
    decreases n
  {
    if n > 0 {
      LowBitAdd(x, y, z);
      MultiplyBitsDistributes(XTime(x), y >> 1, z >> 1, n - 1);
      AddInterchange(LowBitTerm(y, x), LowBitTerm(z, x),
        MultiplyBits(XTime(x), y >> 1, n - 1), MultiplyBits(XTime(x), z >> 1, n - 1));
    }
  }

  lemma {:induction false} MultiplyExp(i: nat, y: Element)
    ensures Multiply(Exp(i), y) == XTimePow(y, i)
  {
    if i == 0 {
      MultiplyOne(y);
    } else {
      MultiplyExp(i - 1, y);
      MultiplyXTime(Exp(i - 1), y);
    }
  }

  lemma {:induction false} XTimePowExp(i: nat, j: nat, s: nat)
    requires s == i + j
    ensures XTimePow(Exp(j), i) == Exp(s)
  {
    if i > 0 {
      XTimePowExp(i - 1, j, s - 1);
    }
  }

  /** a^i * a^j = a^(i+j). */
  lemma ExpProduct(i: nat, j: nat, s: nat)
    requires s == i + j
    ensures Multiply(Exp(i), Exp(j)) == Exp(s)
  {
    MultiplyExp(i, Exp(j));
    XTimePowExp(i, j, s);
  }

  // The first 256 powers of a, sixteen per lemma; each row is computed
  // from the one before, and a^255 = 1 closes the cycle.
  lemma ExpValues0()
    ensures Exp(0) == 0x01 && Exp(1) == 0x02 && Exp(2) == 0x04 && Exp(3) == 0x08
    ensures Exp(4) == 0x10 && Exp(5) == 0x20 && Exp(6) == 0x40 && Exp(7) == 0x80
    ensures Exp(8) == 0x1D && Exp(9) == 0x3A && Exp(10) == 0x74 && Exp(11) == 0xE8
    ensures Exp(12) == 0xCD && Exp(13) == 0x87 && Exp(14) == 0x13 && Exp(15) == 0x26
  {
  }

  lemma ExpValues1()
    ensures Exp(16) == 0x4C && Exp(17) == 0x98 && Exp(18) == 0x2D && Exp(19) == 0x5A
    ensures Exp(20) == 0xB4 && Exp(21) == 0x75 && Exp(22) == 0xEA && Exp(23) == 0xC9
    ensures Exp(24) == 0x8F && Exp(25) == 0x03 && Exp(26) == 0x06 && Exp(27) == 0x0C
    ensures Exp(28) == 0x18 && Exp(29) == 0x30 && Exp(30) == 0x60 && Exp(31) == 0xC0
  {
    ExpValues0();
  }

  lemma ExpValues2()
    ensures Exp(32) == 0x9D && Exp(33) == 0x27 && Exp(34) == 0x4E && Exp(35) == 0x9C
    ensures Exp(36) == 0x25 && Exp(37) == 0x4A && Exp(38) == 0x94 && Exp(39) == 0x35
    ensures Exp(40) == 0x6A && Exp(41) == 0xD4 && Exp(42) == 0xB5 && Exp(43) == 0x77
    ensures Exp(44) == 0xEE && Exp(45) == 0xC1 && Exp(46) == 0x9F && Exp(47) == 0x23
  {
    ExpValues1();
  }

  lemma ExpValues3()
    ensures Exp(48) == 0x46 && Exp(49) == 0x8C && Exp(50) == 0x05 && Exp(51) == 0x0A
    ensures Exp(52) == 0x14 && Exp(53) == 0x28 && Exp(54) == 0x50 && Exp(55) == 0xA0
    ensures Exp(56) == 0x5D && Exp(57) == 0xBA && Exp(58) == 0x69 && Exp(59) == 0xD2
    ensures Exp(60) == 0xB9 && Exp(61) == 0x6F && Exp(62) == 0xDE && Exp(63) == 0xA1
  {
    ExpValues2();
  }

  lemma ExpValues4()
    ensures Exp(64) == 0x5F && Exp(65) == 0xBE && Exp(66) == 0x61 && Exp(67) == 0xC2
    ensures Exp(68) == 0x99 && Exp(69) == 0x2F && Exp(70) == 0x5E && Exp(71) == 0xBC
    ensures Exp(72) == 0x65 && Exp(73) == 0xCA && Exp(74) == 0x89 && Exp(75) == 0x0F
    ensures Exp(76) == 0x1E && Exp(77) == 0x3C && Exp(78) == 0x78 && Exp(79) == 0xF0
  {
    ExpValues3();
  }

  lemma ExpValues5()
    ensures Exp(80) == 0xFD && Exp(81) == 0xE7 && Exp(82) == 0xD3 && Exp(83) == 0xBB
    ensures Exp(84) == 0x6B && Exp(85) == 0xD6 && Exp(86) == 0xB1 && Exp(87) == 0x7F
    ensures Exp(88) == 0xFE && Exp(89) == 0xE1 && Exp(90) == 0xDF && Exp(91) == 0xA3
    ensures Exp(92) == 0x5B && Exp(93) == 0xB6 && Exp(94) == 0x71 && Exp(95) == 0xE2
  {
    ExpValues4();
  }

  lemma ExpValues6()
    ensures Exp(96) == 0xD9 && Exp(97) == 0xAF && Exp(98) == 0x43 && Exp(99) == 0x86
    ensures Exp(100) == 0x11 && Exp(101) == 0x22 && Exp(102) == 0x44 && Exp(103) == 0x88
    ensures Exp(104) == 0x0D && Exp(105) == 0x1A && Exp(106) == 0x34 && Exp(107) == 0x68
    ensures Exp(108) == 0xD0 && Exp(109) == 0xBD && Exp(110) == 0x67 && Exp(111) == 0xCE
  {
    ExpValues5();
  }

  lemma ExpValues7()
    ensures Exp(112) == 0x81 && Exp(113) == 0x1F && Exp(114) == 0x3E && Exp(115) == 0x7C
    ensures Exp(116) == 0xF8 && Exp(117) == 0xED && Exp(118) == 0xC7 && Exp(119) == 0x93
    ensures Exp(120) == 0x3B && Exp(121) == 0x76 && Exp(122) == 0xEC && Exp(123) == 0xC5
    ensures Exp(124) == 0x97 && Exp(125) == 0x33 && Exp(126) == 0x66 && Exp(127) == 0xCC
  {
    ExpValues6();
  }

  lemma ExpValues8()
    ensures Exp(128) == 0x85 && Exp(129) == 0x17 && Exp(130) == 0x2E && Exp(131) == 0x5C
    ensures Exp(132) == 0xB8 && Exp(133) == 0x6D && Exp(134) == 0xDA && Exp(135) == 0xA9
    ensures Exp(136) == 0x4F && Exp(137) == 0x9E && Exp(138) == 0x21 && Exp(139) == 0x42
    ensures Exp(140) == 0x84 && Exp(141) == 0x15 && Exp(142) == 0x2A && Exp(143) == 0x54
  {
    ExpValues7();
  }

  lemma ExpValues9()
    ensures Exp(144) == 0xA8 && Exp(145) == 0x4D && Exp(146) == 0x9A && Exp(147) == 0x29
    ensures Exp(148) == 0x52 && Exp(149) == 0xA4 && Exp(150) == 0x55 && Exp(151) == 0xAA
    ensures Exp(152) == 0x49 && Exp(153) == 0x92 && Exp(154) == 0x39 && Exp(155) == 0x72
    ensures Exp(156) == 0xE4 && Exp(157) == 0xD5 && Exp(158) == 0xB7 && Exp(159) == 0x73
  {
    ExpValues8();
  }

  lemma ExpValues10()
    ensures Exp(160) == 0xE6 && Exp(161) == 0xD1 && Exp(162) == 0xBF && Exp(163) == 0x63
    ensures Exp(164) == 0xC6 && Exp(165) == 0x91 && Exp(166) == 0x3F && Exp(167) == 0x7E
    ensures Exp(168) == 0xFC && Exp(169) == 0xE5 && Exp(170) == 0xD7 && Exp(171) == 0xB3
    ensures Exp(172) == 0x7B && Exp(173) == 0xF6 && Exp(174) == 0xF1 && Exp(175) == 0xFF
  {
    ExpValues9();
  }

  lemma ExpValues11()
    ensures Exp(176) == 0xE3 && Exp(177) == 0xDB && Exp(178) == 0xAB && Exp(179) == 0x4B
    ensures Exp(180) == 0x96 && Exp(181) == 0x31 && Exp(182) == 0x62 && Exp(183) == 0xC4
    ensures Exp(184) == 0x95 && Exp(185) == 0x37 && Exp(186) == 0x6E && Exp(187) == 0xDC
    ensures Exp(188) == 0xA5 && Exp(189) == 0x57 && Exp(190) == 0xAE && Exp(191) == 0x41
  {
    ExpValues10();
  }

  lemma ExpValues12()
    ensures Exp(192) == 0x82 && Exp(193) == 0x19 && Exp(194) == 0x32 && Exp(195) == 0x64
    ensures Exp(196) == 0xC8 && Exp(197) == 0x8D && Exp(198) == 0x07 && Exp(199) == 0x0E
    ensures Exp(200) == 0x1C && Exp(201) == 0x38 && Exp(202) == 0x70 && Exp(203) == 0xE0
    ensures Exp(204) == 0xDD && Exp(205) == 0xA7 && Exp(206) == 0x53 && Exp(207) == 0xA6
  {
    ExpValues11();
  }

  lemma ExpValues13()
    ensures Exp(208) == 0x51 && Exp(209) == 0xA2 && Exp(210) == 0x59 && Exp(211) == 0xB2
    ensures Exp(212) == 0x79 && Exp(213) == 0xF2 && Exp(214) == 0xF9 && Exp(215) == 0xEF
    ensures Exp(216) == 0xC3 && Exp(217) == 0x9B && Exp(218) == 0x2B && Exp(219) == 0x56
    ensures Exp(220) == 0xAC && Exp(221) == 0x45 && Exp(222) == 0x8A && Exp(223) == 0x09
  {
    ExpValues12();
  }

  lemma ExpValues14()
    ensures Exp(224) == 0x12 && Exp(225) == 0x24 && Exp(226) == 0x48 && Exp(227) == 0x90
    ensures Exp(228) == 0x3D && Exp(229) == 0x7A && Exp(230) == 0xF4 && Exp(231) == 0xF5
    ensures Exp(232) == 0xF7 && Exp(233) == 0xF3 && Exp(234) == 0xFB && Exp(235) == 0xEB
    ensures Exp(236) == 0xCB && Exp(237) == 0x8B && Exp(238) == 0x0B && Exp(239) == 0x16
  {
    ExpValues13();
  }

  lemma ExpValues15()
    ensures Exp(240) == 0x2C && Exp(241) == 0x58 && Exp(242) == 0xB0 && Exp(243) == 0x7D
    ensures Exp(244) == 0xFA && Exp(245) == 0xE9 && Exp(246) == 0xCF && Exp(247) == 0x83
    ensures Exp(248) == 0x1B && Exp(249) == 0x36 && Exp(250) == 0x6C && Exp(251) == 0xD8
    ensures Exp(252) == 0xAD && Exp(253) == 0x47 && Exp(254) == 0x8E && Exp(255) == 0x01
  {
    ExpValues14();
  }

  /** The exponent table repeats with period 255. */
  lemma {:induction false} ExpPeriodic(i: nat, m: nat, t: nat)
    requires t == i + 255 * m
    ensures Exp(t) == Exp(i)
  {
    if m > 0 {
      ExpPeriodic(i, m - 1, t - 255);
      ExpProduct(255, t - 255, t);
      ExpOrder();
      MultiplyOne(Exp(t - 255));
    }
  }

  lemma ExpOrder()
    ensures Exp(255) == One
  {
    ExpValues15();
  }

  /** a is primitive: every nonzero element is a power a^k with k < 255. */
  lemma Primitive(x: Element) returns (k: nat)
    requires x != Zero
    ensures k < 255 && Exp(k) == x
  {
    if x < 0x10 {
      k := PrimitiveIn0(x);
    } else if x < 0x20 {
      k := PrimitiveIn1(x);
    } else if x < 0x30 {
      k := PrimitiveIn2(x);
    } else if x < 0x40 {
      k := PrimitiveIn3(x);
    } else if x < 0x50 {
      k := PrimitiveIn4(x);
    } else if x < 0x60 {
      k := PrimitiveIn5(x);
    } else if x < 0x70 {
      k := PrimitiveIn6(x);
    } else if x < 0x80 {
      k := PrimitiveIn7(x);
    } else if x < 0x90 {
      k := PrimitiveIn8(x);
    } else if x < 0xA0 {
      k := PrimitiveIn9(x);
    } else if x < 0xB0 {
      k := PrimitiveIn10(x);
    } else if x < 0xC0 {
      k := PrimitiveIn11(x);
    } else if x < 0xD0 {
      k := PrimitiveIn12(x);
    } else if x < 0xE0 {
      k := PrimitiveIn13(x);
    } else if x < 0xF0 {
      k := PrimitiveIn14(x);
    } else {
      k := PrimitiveIn15(x);
    }
  }

  lemma PrimitiveIn0(x: Element) returns (k: nat)
    requires 0x00 < x < 0x10
    ensures k < 255 && Exp(k) == x
  {
    ExpValues0();
    ExpValues1();
    ExpValues3();
    ExpValues4();
    ExpValues6();
    ExpValues12();
    ExpValues13();
    ExpValues14();
    if x == 0x01 { k := 0; } else if x == 0x02 { k := 1; } else if x == 0x03 { k := 25; } else if x == 0x04 { k := 2; }
    else if x == 0x05 { k := 50; } else if x == 0x06 { k := 26; } else if x == 0x07 { k := 198; } else if x == 0x08 { k := 3; }
    else if x == 0x09 { k := 223; } else if x == 0x0A { k := 51; } else if x == 0x0B { k := 238; } else if x == 0x0C { k := 27; }
    else if x == 0x0D { k := 104; } else if x == 0x0E { k := 199; }
    else { k := 75; }
  }

  lemma PrimitiveIn1(x: Element) returns (k: nat)
    requires 0x10 <= x < 0x20
    ensures k < 255 && Exp(k) == x
  {
    ExpValues0();
    ExpValues1();
    ExpValues3();
    ExpValues4();
    ExpValues6();
    ExpValues7();
    ExpValues8();
    ExpValues12();
    ExpValues14();
    ExpValues15();
    if x == 0x10 { k := 4; } else if x == 0x11 { k := 100; } else if x == 0x12 { k := 224; } else if x == 0x13 { k := 14; }
    else if x == 0x14 { k := 52; } else if x == 0x15 { k := 141; } else if x == 0x16 { k := 239; } else if x == 0x17 { k := 129; }
    else if x == 0x18 { k := 28; } else if x == 0x19 { k := 193; } else if x == 0x1A { k := 105; } else if x == 0x1B { k := 248; }
    else if x == 0x1C { k := 200; } else if x == 0x1D { k := 8; } else if x == 0x1E { k := 76; }
    else { k := 113; }
  }

  lemma PrimitiveIn2(x: Element) returns (k: nat)
    requires 0x20 <= x < 0x30
    ensures k < 255 && Exp(k) == x
  {
    ExpValues0();
    ExpValues1();
    ExpValues2();
    ExpValues3();
    ExpValues4();
    ExpValues6();
    ExpValues8();
    ExpValues9();
    ExpValues13();
    ExpValues14();
    ExpValues15();
    if x == 0x20 { k := 5; } else if x == 0x21 { k := 138; } else if x == 0x22 { k := 101; } else if x == 0x23 { k := 47; }
    else if x == 0x24 { k := 225; } else if x == 0x25 { k := 36; } else if x == 0x26 { k := 15; } else if x == 0x27 { k := 33; }
    else if x == 0x28 { k := 53; } else if x == 0x29 { k := 147; } else if x == 0x2A { k := 142; } else if x == 0x2B { k := 218; }
    else if x == 0x2C { k := 240; } else if x == 0x2D { k := 18; } else if x == 0x2E { k := 130; }
    else { k := 69; }
  }

  lemma PrimitiveIn3(x: Element) returns (k: nat)
    requires 0x30 <= x < 0x40
    ensures k < 255 && Exp(k) == x
  {
    ExpValues0();
    ExpValues1();
    ExpValues2();
    ExpValues4();
    ExpValues6();
    ExpValues7();
    ExpValues9();
    ExpValues10();
    ExpValues11();
    ExpValues12();
    ExpValues14();
    ExpValues15();
    if x == 0x30 { k := 29; } else if x == 0x31 { k := 181; } else if x == 0x32 { k := 194; } else if x == 0x33 { k := 125; }
    else if x == 0x34 { k := 106; } else if x == 0x35 { k := 39; } else if x == 0x36 { k := 249; } else if x == 0x37 { k := 185; }
    else if x == 0x38 { k := 201; } else if x == 0x39 { k := 154; } else if x == 0x3A { k := 9; } else if x == 0x3B { k := 120; }
    else if x == 0x3C { k := 77; } else if x == 0x3D { k := 228; } else if x == 0x3E { k := 114; }
    else { k := 166; }
  }

  lemma PrimitiveIn4(x: Element) returns (k: nat)
    requires 0x40 <= x < 0x50
    ensures k < 255 && Exp(k) == x
  {
    ExpValues0();
    ExpValues1();
    ExpValues2();
    ExpValues3();
    ExpValues6();
    ExpValues8();
    ExpValues9();
    ExpValues11();
    ExpValues13();
    ExpValues14();
    ExpValues15();
    if x == 0x40 { k := 6; } else if x == 0x41 { k := 191; } else if x == 0x42 { k := 139; } else if x == 0x43 { k := 98; }
    else if x == 0x44 { k := 102; } else if x == 0x45 { k := 221; } else if x == 0x46 { k := 48; } else if x == 0x47 { k := 253; }
    else if x == 0x48 { k := 226; } else if x == 0x49 { k := 152; } else if x == 0x4A { k := 37; } else if x == 0x4B { k := 179; }
    else if x == 0x4C { k := 16; } else if x == 0x4D { k := 145; } else if x == 0x4E { k := 34; }
    else { k := 136; }
  }

  lemma PrimitiveIn5(x: Element) returns (k: nat)
    requires 0x50 <= x < 0x60
    ensures k < 255 && Exp(k) == x
  {
    ExpValues1();
    ExpValues3();
    ExpValues4();
    ExpValues5();
    ExpValues8();
    ExpValues9();
    ExpValues11();
    ExpValues12();
    ExpValues13();
    ExpValues15();
    if x == 0x50 { k := 54; } else if x == 0x51 { k := 208; } else if x == 0x52 { k := 148; } else if x == 0x53 { k := 206; }
    else if x == 0x54 { k := 143; } else if x == 0x55 { k := 150; } else if x == 0x56 { k := 219; } else if x == 0x57 { k := 189; }
    else if x == 0x58 { k := 241; } else if x == 0x59 { k := 210; } else if x == 0x5A { k := 19; } else if x == 0x5B { k := 92; }
    else if x == 0x5C { k := 131; } else if x == 0x5D { k := 56; } else if x == 0x5E { k := 70; }
    else { k := 64; }
  }

  lemma PrimitiveIn6(x: Element) returns (k: nat)
    requires 0x60 <= x < 0x70
    ensures k < 255 && Exp(k) == x
  {
    ExpValues1();
    ExpValues2();
    ExpValues3();
    ExpValues4();
    ExpValues5();
    ExpValues6();
    ExpValues7();
    ExpValues8();
    ExpValues10();
    ExpValues11();
    ExpValues12();
    ExpValues15();
    if x == 0x60 { k := 30; } else if x == 0x61 { k := 66; } else if x == 0x62 { k := 182; } else if x == 0x63 { k := 163; }
    else if x == 0x64 { k := 195; } else if x == 0x65 { k := 72; } else if x == 0x66 { k := 126; } else if x == 0x67 { k := 110; }
    else if x == 0x68 { k := 107; } else if x == 0x69 { k := 58; } else if x == 0x6A { k := 40; } else if x == 0x6B { k := 84; }
    else if x == 0x6C { k := 250; } else if x == 0x6D { k := 133; } else if x == 0x6E { k := 186; }
    else { k := 61; }
  }

  lemma PrimitiveIn7(x: Element) returns (k: nat)
    requires 0x70 <= x < 0x80
    ensures k < 255 && Exp(k) == x
  {
    ExpValues0();
    ExpValues1();
    ExpValues2();
    ExpValues4();
    ExpValues5();
    ExpValues7();
    ExpValues9();
    ExpValues10();
    ExpValues12();
    ExpValues13();
    ExpValues14();
    ExpValues15();
    if x == 0x70 { k := 202; } else if x == 0x71 { k := 94; } else if x == 0x72 { k := 155; } else if x == 0x73 { k := 159; }
    else if x == 0x74 { k := 10; } else if x == 0x75 { k := 21; } else if x == 0x76 { k := 121; } else if x == 0x77 { k := 43; }
    else if x == 0x78 { k := 78; } else if x == 0x79 { k := 212; } else if x == 0x7A { k := 229; } else if x == 0x7B { k := 172; }
    else if x == 0x7C { k := 115; } else if x == 0x7D { k := 243; } else if x == 0x7E { k := 167; }
    else { k := 87; }
  }

  lemma PrimitiveIn8(x: Element) returns (k: nat)
    requires 0x80 <= x < 0x90
    ensures k < 255 && Exp(k) == x
  {
    ExpValues0();
    ExpValues1();
    ExpValues3();
    ExpValues4();
    ExpValues6();
    ExpValues7();
    ExpValues8();
    ExpValues12();
    ExpValues13();
    ExpValues14();
    ExpValues15();
    if x == 0x80 { k := 7; } else if x == 0x81 { k := 112; } else if x == 0x82 { k := 192; } else if x == 0x83 { k := 247; }
    else if x == 0x84 { k := 140; } else if x == 0x85 { k := 128; } else if x == 0x86 { k := 99; } else if x == 0x87 { k := 13; }
    else if x == 0x88 { k := 103; } else if x == 0x89 { k := 74; } else if x == 0x8A { k := 222; } else if x == 0x8B { k := 237; }
    else if x == 0x8C { k := 49; } else if x == 0x8D { k := 197; } else if x == 0x8E { k := 254; }
    else { k := 24; }
  }

  lemma PrimitiveIn9(x: Element) returns (k: nat)
    requires 0x90 <= x < 0xA0
    ensures k < 255 && Exp(k) == x
  {
    ExpValues1();
    ExpValues2();
    ExpValues4();
    ExpValues7();
    ExpValues8();
    ExpValues9();
    ExpValues10();
    ExpValues11();
    ExpValues13();
    ExpValues14();
    if x == 0x90 { k := 227; } else if x == 0x91 { k := 165; } else if x == 0x92 { k := 153; } else if x == 0x93 { k := 119; }
    else if x == 0x94 { k := 38; } else if x == 0x95 { k := 184; } else if x == 0x96 { k := 180; } else if x == 0x97 { k := 124; }
    else if x == 0x98 { k := 17; } else if x == 0x99 { k := 68; } else if x == 0x9A { k := 146; } else if x == 0x9B { k := 217; }
    else if x == 0x9C { k := 35; } else if x == 0x9D { k := 32; } else if x == 0x9E { k := 137; }
    else { k := 46; }
  }

  lemma PrimitiveIn10(x: Element) returns (k: nat)
    requires 0xA0 <= x < 0xB0
    ensures k < 255 && Exp(k) == x
  {
    ExpValues3();
    ExpValues5();
    ExpValues6();
    ExpValues8();
    ExpValues9();
    ExpValues11();
    ExpValues12();
    ExpValues13();
    ExpValues15();
    if x == 0xA0 { k := 55; } else if x == 0xA1 { k := 63; } else if x == 0xA2 { k := 209; } else if x == 0xA3 { k := 91; }
    else if x == 0xA4 { k := 149; } else if x == 0xA5 { k := 188; } else if x == 0xA6 { k := 207; } else if x == 0xA7 { k := 205; }
    else if x == 0xA8 { k := 144; } else if x == 0xA9 { k := 135; } else if x == 0xAA { k := 151; } else if x == 0xAB { k := 178; }
    else if x == 0xAC { k := 220; } else if x == 0xAD { k := 252; } else if x == 0xAE { k := 190; }
    else { k := 97; }
  }

  lemma PrimitiveIn11(x: Element) returns (k: nat)
    requires 0xB0 <= x < 0xC0
    ensures k < 255 && Exp(k) == x
  {
    ExpValues1();
    ExpValues2();
    ExpValues3();
    ExpValues4();
    ExpValues5();
    ExpValues6();
    ExpValues8();
    ExpValues9();
    ExpValues10();
    ExpValues13();
    ExpValues15();
    if x == 0xB0 { k := 242; } else if x == 0xB1 { k := 86; } else if x == 0xB2 { k := 211; } else if x == 0xB3 { k := 171; }
    else if x == 0xB4 { k := 20; } else if x == 0xB5 { k := 42; } else if x == 0xB6 { k := 93; } else if x == 0xB7 { k := 158; }
    else if x == 0xB8 { k := 132; } else if x == 0xB9 { k := 60; } else if x == 0xBA { k := 57; } else if x == 0xBB { k := 83; }
    else if x == 0xBC { k := 71; } else if x == 0xBD { k := 109; } else if x == 0xBE { k := 65; }
    else { k := 162; }
  }

  lemma PrimitiveIn12(x: Element) returns (k: nat)
    requires 0xC0 <= x < 0xD0
    ensures k < 255 && Exp(k) == x
  {
    ExpValues0();
    ExpValues1();
    ExpValues2();
    ExpValues4();
    ExpValues6();
    ExpValues7();
    ExpValues10();
    ExpValues11();
    ExpValues12();
    ExpValues13();
    ExpValues14();
    ExpValues15();
    if x == 0xC0 { k := 31; } else if x == 0xC1 { k := 45; } else if x == 0xC2 { k := 67; } else if x == 0xC3 { k := 216; }
    else if x == 0xC4 { k := 183; } else if x == 0xC5 { k := 123; } else if x == 0xC6 { k := 164; } else if x == 0xC7 { k := 118; }
    else if x == 0xC8 { k := 196; } else if x == 0xC9 { k := 23; } else if x == 0xCA { k := 73; } else if x == 0xCB { k := 236; }
    else if x == 0xCC { k := 127; } else if x == 0xCD { k := 12; } else if x == 0xCE { k := 111; }
    else { k := 246; }
  }

  lemma PrimitiveIn13(x: Element) returns (k: nat)
    requires 0xD0 <= x < 0xE0
    ensures k < 255 && Exp(k) == x
  {
    ExpValues2();
    ExpValues3();
    ExpValues5();
    ExpValues6();
    ExpValues8();
    ExpValues9();
    ExpValues10();
    ExpValues11();
    ExpValues12();
    ExpValues15();
    if x == 0xD0 { k := 108; } else if x == 0xD1 { k := 161; } else if x == 0xD2 { k := 59; } else if x == 0xD3 { k := 82; }
    else if x == 0xD4 { k := 41; } else if x == 0xD5 { k := 157; } else if x == 0xD6 { k := 85; } else if x == 0xD7 { k := 170; }
    else if x == 0xD8 { k := 251; } else if x == 0xD9 { k := 96; } else if x == 0xDA { k := 134; } else if x == 0xDB { k := 177; }
    else if x == 0xDC { k := 187; } else if x == 0xDD { k := 204; } else if x == 0xDE { k := 62; }
    else { k := 90; }
  }

  lemma PrimitiveIn14(x: Element) returns (k: nat)
    requires 0xE0 <= x < 0xF0
    ensures k < 255 && Exp(k) == x
  {
    ExpValues0();
    ExpValues1();
    ExpValues2();
    ExpValues5();
    ExpValues7();
    ExpValues9();
    ExpValues10();
    ExpValues11();
    ExpValues12();
    ExpValues13();
    ExpValues14();
    ExpValues15();
    if x == 0xE0 { k := 203; } else if x == 0xE1 { k := 89; } else if x == 0xE2 { k := 95; } else if x == 0xE3 { k := 176; }
    else if x == 0xE4 { k := 156; } else if x == 0xE5 { k := 169; } else if x == 0xE6 { k := 160; } else if x == 0xE7 { k := 81; }
    else if x == 0xE8 { k := 11; } else if x == 0xE9 { k := 245; } else if x == 0xEA { k := 22; } else if x == 0xEB { k := 235; }
    else if x == 0xEC { k := 122; } else if x == 0xED { k := 117; } else if x == 0xEE { k := 44; }
    else { k := 215; }
  }

  lemma PrimitiveIn15(x: Element) returns (k: nat)
    requires 0xF0 <= x
    ensures k < 255 && Exp(k) == x
  {
    ExpValues4();
    ExpValues5();
    ExpValues7();
    ExpValues10();
    ExpValues13();
    ExpValues14();
    ExpValues15();
    if x == 0xF0 { k := 79; } else if x == 0xF1 { k := 174; } else if x == 0xF2 { k := 213; } else if x == 0xF3 { k := 233; }
    else if x == 0xF4 { k := 230; } else if x == 0xF5 { k := 231; } else if x == 0xF6 { k := 173; } else if x == 0xF7 { k := 232; }
    else if x == 0xF8 { k := 116; } else if x == 0xF9 { k := 214; } else if x == 0xFA { k := 244; } else if x == 0xFB { k := 234; }
    else if x == 0xFC { k := 168; } else if x == 0xFD { k := 80; } else if x == 0xFE { k := 88; }
    else { k := 175; }
  }

  lemma {:induction false} LogFromFinds(x: Element, i: nat, k: nat)
    requires i <= k < 255 && Exp(k) == x
    ensures LogFrom(x, i) <= k
    decreases 255 - i
  {
    if i < k && Exp(i) != x {
      LogFromFinds(x, i + 1, k);
    }
  }

  /** The log table inverts the exponent table on nonzero elements. */
  lemma LogExp(x: Element)
    requires x != Zero
    ensures Log(x) < 255 && Exp(Log(x)) == x
  {
    var k := Primitive(x);
    LogFromFinds(x, LogStart, k);
  }

  /** The table formulation on exponents: a^i * a^j = a^((i + j) mod 255). */
  lemma ExpProductMod(i: nat, j: nat)
    ensures Multiply(Exp(i), Exp(j)) == Exp((i + j) % 255)
  {
    ExpProductReduced(i, j, i + j, (i + j) % 255, (i + j) / 255);
  }

  /** a^i * a^j = a^r whenever i + j = r + 255q. */
  lemma ExpProductReduced(i: nat, j: nat, s: nat, r: nat, q: nat)
    requires s == i + j && s == r + 255 * q
    ensures Multiply(Exp(i), Exp(j)) == Exp(r)
  {
    ExpProduct(i, j, s);
    ExpPeriodic(r, q, s);
  }

  /** The table formulation: x * y = a^((log x + log y) mod 255). */
  lemma MultiplyByLogs(x: Element, y: Element)
    requires x != Zero && y != Zero
    ensures Multiply(x, y) == Exp((Log(x) + Log(y)) % 255)
  {
    LogExp(x);
    LogExp(y);
    var i, j := Log(x), Log(y);
    ExpProductAt(x, y, i, j);
  }

  lemma ExpProductAt(x: Element, y: Element, i: nat, j: nat)
    requires x == Exp(i) && y == Exp(j)
    ensures Multiply(x, y) == Exp((i + j) % 255)
  {
    ExpProductMod(i, j);
  }

  lemma DivideExp(i: nat, j: nat)
    requires i < 255 && j < 255
    ensures Multiply(Exp((i + 255 - j) % 255), Exp(j)) == Exp(i)
  {
    if i < j {
      assert (i + 255 - j) % 255 + j == i + 255;
      ExpProductReduced((i + 255 - j) % 255, j, i + 255, i, 1);
    } else {
      assert (i + 255 - j) % 255 + j == i;
      ExpProductReduced((i + 255 - j) % 255, j, i, i, 0);
    }
  }

  lemma DivideByLogs(x: Element, y: Element)
    requires x != Zero && y != Zero
    ensures Multiply(Exp((Log(x) + 255 - Log(y)) % 255), y) == x
  {
    LogExp(x);
    LogExp(y);
    DivideExp(Log(x), Log(y));
  }

  lemma MultiplyCommutative(x: Element, y: Element)
    ensures Multiply(x, y) == Multiply(y, x)
  {
    if x != Zero && y != Zero {
      MultiplyByLogs(x, y);
      MultiplyByLogs(y, x);
    } else {
      MultiplyZero(x);
      MultiplyZero(y);
    }
  }

  lemma ExpAssociative(i: nat, j: nat, k: nat)
    ensures Multiply(Multiply(Exp(i), Exp(j)), Exp(k)) == Multiply(Exp(i), Multiply(Exp(j), Exp(k)))
  {
    var ij, jk, ijk := i + j, j + k, i + j + k;
    ExpProduct(i, j, ij);
    ExpProduct(ij, k, ijk);
    ExpProduct(j, k, jk);
    ExpProduct(i, jk, ijk);
  }

  lemma ExpAssociativeAt(x: Element, y: Element, z: Element, i: nat, j: nat, k: nat)
    requires x == Exp(i) && y == Exp(j) && z == Exp(k)
    ensures Multiply(Multiply(x, y), z) == Multiply(x, Multiply(y, z))
  {
    ExpAssociative(i, j, k);
  }

  lemma MultiplyAssociative(x: Element, y: Element, z: Element)
    ensures Multiply(Multiply(x, y), z) == Multiply(x, Multiply(y, z))
  {
    if x != Zero && y != Zero && z != Zero {
      LogExp(x);
      LogExp(y);
      LogExp(z);
      ExpAssociativeAt(x, y, z, Log(x), Log(y), Log(z));
    } else {
      MultiplyZero(x);
      MultiplyZero(y);
      MultiplyZero(z);
      MultiplyZero(Multiply(x, y));
      MultiplyZero(Multiply(y, z));
    }
  }

  lemma MultiplyDistributes(x: Element, y: Element, z: Element)
    ensures Multiply(x, Add(y, z)) == Add(Multiply(x, y), Multiply(x, z))
  {
    MultiplyBitsDistributes(x, y, z, Width);
  }

  lemma NoZeroDivisors(x: Element, y: Element)
    ensures Multiply(x, y) == Zero <==> x == Zero || y == Zero
  {
    MultiplyZero(x);
    MultiplyZero(y);
    if x != Zero && y != Zero {
      MultiplyByLogs(x, y);
      ExpNonzero((Log(x) + Log(y)) % 255);
    }
  }
}

=== FILE: gf_poly.dfy ===
/**
 Polynomials over GF(2^8), as the Reed-Solomon encoder uses them.  A
 polynomial is its term sequence: term[i] is the coefficient of x^i, and
 the sequence may carry zero high terms until it is normalised.  Two term
 sequences denote the same polynomial exactly when their coefficients
 (`Coef`, zero past the end) agree.
 */
module GFPoly {
  import GF
  import Bitset

  type Poly = seq<GF.Element>

  /** The coefficient of x^k; zero beyond the stored terms. */
  function Coef(p: Poly, k: nat): GF.Element
  {
    if k < |p| then p[k] else GF.Zero
  }

  /** No zero highest term; the zero polynomial is the empty sequence. */
  predicate IsNormalised(p: Poly)
  {
    |p| == 0 || p[|p| - 1] != GF.Zero
  }

  /** n zero terms, as a freshly allocated term slice holds. */
  function Zeros(n: nat): (r: Poly)
    ensures |r| == n
    ensures forall k: nat :: Coef(r, k) == GF.Zero
  {
    seq(n, _ => GF.Zero)
  }

  /** Drops the zero highest terms. */
  function Normalised(p: Poly): (r: Poly)
    ensures IsNormalised(r)
    ensures |r| <= |p| && r == p[..|r|]
    ensures forall k :: |r| <= k < |p| ==> p[k] == GF.Zero
    decreases |p|
  {
    if |p| == 0 || p[|p| - 1] != GF.Zero then p else Normalised(p[..|p| - 1])
  }

  /** Normalising keeps every coefficient. */
  lemma NormalisedCoef(p: Poly)
    ensures forall k: nat :: Coef(Normalised(p), k) == Coef(p, k)
  {
  }

  /** A normalised polynomial is determined by its coefficients. */
  lemma NormalisedUnique(a: Poly, b: Poly)
    requires IsNormalised(a) && IsNormalised(b)
    requires forall k: nat :: Coef(a, k) == Coef(b, k)
    ensures a == b
  {
    var n := if |a| < |b| then |b| else |a|;
    if n > 0 {
      assert Coef(a, n - 1) == Coef(b, n - 1);
    }
    forall i | 0 <= i < |a|
      ensures a[i] == b[i]
    {
      assert Coef(a, i) == Coef(b, i);
    }
  }

  /** Normalising is idempotent, and two polynomials normalise to the same
      terms exactly when their coefficients agree. */
  lemma NormalisedSame(a: Poly, b: Poly)
    ensures Normalised(Normalised(a)) == Normalised(a)
    ensures Normalised(a) == Normalised(b) <==> forall k: nat :: Coef(a, k) == Coef(b, k)
  {
    NormalisedCoef(a);
    NormalisedCoef(b);
    if forall k: nat :: Coef(a, k) == Coef(b, k) {
      NormalisedUnique(Normalised(a), Normalised(b));
    }
  }

  /** The term-by-term sum before normalisation, longer operand's length. */
  function AddTerms(a: Poly, b: Poly): (r: Poly)
    ensures |r| == if |a| < |b| then |b| else |a|
    ensures forall k: nat :: Coef(r, k) == GF.Add(Coef(a, k), Coef(b, k))
  {
    var n := if |a| < |b| then |b| else |a|;
    seq(n, i requires 0 <= i < n =>
      if i < |a| && i < |b| then GF.Add(a[i], b[i])
      else if i < |a| then a[i]
      else b[i])
  }

  /** Polynomial addition (and subtraction): coefficient-wise field sum,
      normalised. */
  function Add(a: Poly, b: Poly): (r: Poly)
    ensures IsNormalised(r)
    ensures |r| <= if |a| < |b| then |b| else |a|
    ensures forall k: nat :: Coef(r, k) == GF.Add(Coef(a, k), Coef(b, k))
  {
    NormalisedCoef(AddTerms(a, b));
    Normalised(AddTerms(a, b))
  }

  /** Adding b twice gives back a: addition is its own inverse. */
  lemma AddCancel(a: Poly, b: Poly)
    ensures Add(Add(a, b), b) == Normalised(a)
  {
    forall k: nat
      ensures Coef(Add(Add(a, b), b), k) == Coef(a, k)
    {
      GF.AddLaws(Coef(a, k), Coef(b, k), Coef(b, k));
    }
    NormalisedSame(Add(Add(a, b), b), a);
  }

  /** Addition is commutative, and a polynomial added to itself is the
      zero polynomial. */
  lemma AddLaws(a: Poly, b: Poly)
    ensures Add(a, b) == Add(b, a)
    ensures Add(a, a) == []
  {
    forall k: nat
      ensures Coef(Add(a, b), k) == Coef(Add(b, a), k)
      ensures Coef(Add(a, a), k) == Coef([], k)
    {
      GF.AddLaws(Coef(a, k), Coef(b, k), GF.Zero);
    }
    NormalisedUnique(Add(a, b), Add(b, a));
    NormalisedUnique(Add(a, a), []);
  }

  /** term * x^degree; the zero polynomial when term is zero. */
  function Monomial(term: GF.Element, degree: nat): (r: Poly)
    ensures IsNormalised(r)
    ensures |r| == if term == GF.Zero then 0 else degree + 1
    ensures forall k: nat :: Coef(r, k) == if k == degree then term else GF.Zero
  {
    if term == GF.Zero then [] else Zeros(degree) + [term]
  }

  /** Equality as polynomials: the terms both hold agree, and the longer
      one's extra terms are zero. */
  function Equals(a: Poly, b: Poly): (r: bool)
    ensures r <==> forall k: nat :: Coef(a, k) == Coef(b, k)
  {
    var long := if |a| > |b| then a else b;
    var m := if |a| > |b| then |b| else |a|;
    EqualsLoops(a, b, long, m);
    (forall i :: 0 <= i < m ==> a[i] == b[i])
      && (forall i :: m <= i < |long| ==> long[i] == GF.Zero)
  }

  lemma EqualsLoops(a: Poly, b: Poly, long: Poly, m: nat)
    requires long == (if |a| > |b| then a else b)
    requires m == (if |a| > |b| then |b| else |a|)
    ensures ((forall i :: 0 <= i < m ==> a[i] == b[i])
      && (forall i :: m <= i < |long| ==> long[i] == GF.Zero))
      <==> forall k: nat :: Coef(a, k) == Coef(b, k)
  {
    if !(forall i :: 0 <= i < m ==> a[i] == b[i]) {
      var i :| 0 <= i < m && a[i] != b[i];
      assert Coef(a, i) != Coef(b, i);
    } else if !(forall i :: m <= i < |long| ==> long[i] == GF.Zero) {
      var i :| m <= i < |long| && long[i] != GF.Zero;
      assert Coef(a, i) != Coef(b, i);
    } else {
      forall k: nat
        ensures Coef(a, k) == Coef(b, k)
      {
        if k >= m && k < |long| {
          assert long[k] == GF.Zero;
        }
      }
    }
  }

  /** Equality is equality after normalising; it is reflexive and
      symmetric. */
  lemma EqualsNormalised(a: Poly, b: Poly)
    ensures Equals(a, b) <==> Normalised(a) == Normalised(b)
    ensures Equals(a, a) && Equals(a, b) == Equals(b, a)
  {
    NormalisedSame(a, b);
  }

  /** The empty polynomial equals any all-zero one, in either order. */
  lemma EqualsEmptyZeros(n: nat)
    ensures Equals([], Zeros(n)) && Equals(Zeros(n), [])
  {
  }

  /** The terms in reverse order, highest first. */
  function Reverse(p: Poly): (r: Poly)
    ensures |r| == |p|
    ensures forall i :: 0 <= i < |p| ==> r[i] == p[|p| - 1 - i]
  {
    if |p| == 0 then [] else Reverse(p[1..]) + [p[0]]
  }

  /** The terms as numTerms bytes, highest term first, padded with leading
      zero bytes; the library indexes out of range when the polynomial has
      more terms than that. */
  function Data(p: Poly, numTerms: nat): (r: seq<GF.Element>)
    requires |p| <= numTerms
    ensures |r| == numTerms
    ensures forall i :: 0 <= i < numTerms ==> r[i] == Coef(p, numTerms - 1 - i)
  {
    Zeros(numTerms - |p|) + Reverse(p)
  }

  /** The contribution a_m * b_(k-m) to the coefficient of x^k of a * b. */
  function Term(a: Poly, b: Poly, k: nat, m: nat): GF.Element
    requires m <= k
  {
    GF.Multiply(Coef(a, m), Coef(b, k - m))
  }

  /** The sum of the contributions Term(a, b, k, m) for i <= m <= k. */
  function ConvFrom(a: Poly, b: Poly, k: nat, i: nat): GF.Element
    decreases k + 1 - i
  {
    if i > k then GF.Zero else GF.Add(Term(a, b, k, i), ConvFrom(a, b, k, i + 1))
  }

  /** The coefficient of x^k of the product a * b: the sum of a_m * b_(k-m)
      over 0 <= m <= k. */
  function ProductCoef(a: Poly, b: Poly, k: nat): GF.Element
  {
    ConvFrom(a, b, k, 0)
  }

  /** The inner loop of the product: adds a_i * b_j * x^(i+j) for every j
      from j on at which both terms are nonzero. */
  function MultiplyRow(a: Poly, b: Poly, i: nat, j: nat, acc: Poly): Poly
    requires i < |a| && j <= |b|
    decreases |b| - j
  {
    if j == |b| then acc
    else
      var acc' := if a[i] != GF.Zero && b[j] != GF.Zero
        then Add(acc, Zeros(i + j) + [GF.Multiply(a[i], b[j])])
        else acc;
      MultiplyRow(a, b, i, j + 1, acc')
  }

  /** The outer loop of the product, over the terms of a from i on. */
  function MultiplyRows(a: Poly, b: Poly, i: nat, acc: Poly): Poly
    requires i <= |a|
    decreases |a| - i
  {
    if i == |a| then acc else MultiplyRows(a, b, i + 1, MultiplyRow(a, b, i, 0, acc))
  }

  /** Polynomial multiplication, accumulating one product term at a time
      into |a| + |b| zero terms, normalised. */
  function Multiply(a: Poly, b: Poly): (r: Poly)
    ensures IsNormalised(r)
    ensures forall k: nat :: Coef(r, k) == ProductCoef(a, b, k)
  {
    var r := MultiplyRows(a, b, 0, Zeros(|a| + |b|));
    forall k: nat
      ensures Coef(r, k) == ProductCoef(a, b, k)
    {
      RowsCoef(a, b, 0, Zeros(|a| + |b|), k);
    }
    NormalisedCoef(r);
    Normalised(r)
  }

  /** One row adds a_i * b_(k-i) to the coefficient of x^k, if k - i is an
      index the row has still to visit. */
  lemma {:induction false} RowCoef(a: Poly, b: Poly, i: nat, j: nat, acc: Poly, k: nat)
    requires i < |a| && j <= |b|
    ensures Coef(MultiplyRow(a, b, i, j, acc), k)
      == GF.Add(Coef(acc, k), if i <= k && j <= k - i then GF.Multiply(a[i], Coef(b, k - i)) else GF.Zero)
    decreases |b| - j
  {
    GF.MultiplyZero(a[i]);
    if j == |b| {
      GF.AddLaws(Coef(acc, k), GF.Zero, GF.Zero);
    } else {
      var p := GF.Multiply(a[i], b[j]);
      var acc' := if a[i] != GF.Zero && b[j] != GF.Zero then Add(acc, Zeros(i + j) + [p]) else acc;
      GF.MultiplyZero(b[j]);
      assert Coef(acc', k) == GF.Add(Coef(acc, k), if k == i + j then p else GF.Zero) by {
        GF.AddLaws(Coef(acc, k), GF.Zero, GF.Zero);
        if a[i] != GF.Zero && b[j] != GF.Zero {
          assert Coef(Zeros(i + j) + [p], k) == if k == i + j then p else GF.Zero;
        }
      }
      RowCoef(a, b, i, j + 1, acc', k);
      GF.AddLaws(Coef(acc, k), if k == i + j then p else GF.Zero, GF.Zero);
      GF.AddLaws(Coef(acc, k), GF.Zero, GF.Zero);
    }
  }

  /** Contributions from rows past the end of a are zero. */
  lemma {:induction false} ConvTail(a: Poly, b: Poly, k: nat, i: nat)
    requires i >= |a|
    ensures ConvFrom(a, b, k, i) == GF.Zero
    decreases k + 1 - i
  {
    if i <= k {
      ConvTail(a, b, k, i + 1);
      GF.MultiplyZero(Coef(b, k - i));
      GF.AddLaws(GF.Zero, GF.Zero, GF.Zero);
    }
  }

  /** The rows from i on add the contributions of a_m for m >= i. */
  lemma {:induction false} RowsCoef(a: Poly, b: Poly, i: nat, acc: Poly, k: nat)
    requires i <= |a|
    ensures Coef(MultiplyRows(a, b, i, acc), k) == GF.Add(Coef(acc, k), ConvFrom(a, b, k, i))
    decreases |a| - i
  {
    if i == |a| {
      ConvTail(a, b, k, i);
      GF.AddLaws(Coef(acc, k), GF.Zero, GF.Zero);
    } else {
      var acc' := MultiplyRow(a, b, i, 0, acc);
      RowCoef(a, b, i, 0, acc, k);
      RowsCoef(a, b, i + 1, acc', k);
      ConvStep(a, b, k, i);
      AddShift(Coef(acc, k), if i <= k then GF.Multiply(a[i], Coef(b, k - i)) else GF.Zero,
        ConvFrom(a, b, k, i + 1));
    }
  }

  /** Peeling one contribution off the sum, or none when i is past k. */
  lemma ConvStep(a: Poly, b: Poly, k: nat, i: nat)
    requires i < |a|
    ensures ConvFrom(a, b, k, i)
      == GF.Add(if i <= k then GF.Multiply(a[i], Coef(b, k - i)) else GF.Zero, ConvFrom(a, b, k, i + 1))
  {
    if i > k {
      GF.AddLaws(GF.Zero, GF.Zero, GF.Zero);
    }
  }

  lemma AddShift(x: GF.Element, y: GF.Element, z: GF.Element)
    ensures GF.Add(GF.Add(x, y), z) == GF.Add(x, GF.Add(y, z))
  {
    GF.AddLaws(x, y, z);
  }

  /** The product distributes over addition in its second operand. */
  lemma {:induction false} ConvLinear(a: Poly, b1: Poly, b2: Poly, c: Poly, k: nat, i: nat)
    requires forall x: nat :: Coef(c, x) == GF.Add(Coef(b1, x), Coef(b2, x))
    ensures ConvFrom(a, c, k, i) == GF.Add(ConvFrom(a, b1, k, i), ConvFrom(a, b2, k, i))
    decreases k + 1 - i
  {
    if i > k {
      GF.AddLaws(GF.Zero, GF.Zero, GF.Zero);
    } else {
      ConvLinear(a, b1, b2, c, k, i + 1);
      var x := k - i;
      GF.MultiplyDistributes(Coef(a, i), Coef(b1, x), Coef(b2, x));
      GF.AddInterchange(Term(a, b1, k, i), Term(a, b2, k, i),
        ConvFrom(a, b1, k, i + 1), ConvFrom(a, b2, k, i + 1));
    }
  }

  /** A sum with at most one nonzero contribution, at t, is that
      contribution. */
  lemma {:induction false} ConvSingle(a: Poly, b: Poly, k: nat, i: nat, t: nat)
    requires t <= k
    requires forall m :: i <= m <= k && m != t ==> Term(a, b, k, m) == GF.Zero
    ensures ConvFrom(a, b, k, i) == if i <= t then Term(a, b, k, t) else GF.Zero
    decreases k + 1 - i
  {
    if i <= k {
      ConvSingle(a, b, k, i + 1, t);
      GF.AddLaws(Term(a, b, k, i), GF.Zero, GF.Zero);
      GF.AddLaws(GF.Zero, Term(a, b, k, t), GF.Zero);
    }
  }

  /** The sum of the contributions Term(a, b, k, m) for m < n. */
  function ConvBelow(a: Poly, b: Poly, k: nat, n: nat): GF.Element
    requires n <= k + 1
  {
    if n == 0 then GF.Zero else GF.Add(ConvBelow(a, b, k, n - 1), Term(a, b, k, n - 1))
  }

  /** The whole sum split at i into the contributions below i and the
      rest. */
  lemma {:induction false} ConvSplit(a: Poly, b: Poly, k: nat, i: nat)
    requires i <= k + 1
    ensures ConvBelow(a, b, k, k + 1) == GF.Add(ConvBelow(a, b, k, i), ConvFrom(a, b, k, i))
    decreases k + 1 - i
  {
    if i == k + 1 {
      GF.AddLaws(ConvBelow(a, b, k, i), GF.Zero, GF.Zero);
    } else {
      ConvSplit(a, b, k, i + 1);
      AddShift(ConvBelow(a, b, k, i), Term(a, b, k, i), ConvFrom(a, b, k, i + 1));
    }
  }

  /** The top n contributions of the swapped product are the bottom n
      contributions of the product. */
  lemma {:induction false} ConvSwap(a: Poly, b: Poly, k: nat, n: nat)
    requires n <= k + 1
    ensures ConvFrom(b, a, k, k + 1 - n) == ConvBelow(a, b, k, n)
    decreases n
  {
    if n > 0 {
      var m := n - 1;
      ConvSwap(a, b, k, m);
      assert Term(b, a, k, k - m) == GF.Multiply(Coef(b, k - m), Coef(a, m));
      GF.MultiplyCommutative(Coef(b, k - m), Coef(a, m));
      GF.AddLaws(Term(a, b, k, m), ConvBelow(a, b, k, m), GF.Zero);
    }
  }

  /** The product's coefficients do not depend on the order of the
      factors. */
  lemma ProductCoefSwap(a: Poly, b: Poly, k: nat)
    ensures ProductCoef(a, b, k) == ProductCoef(b, a, k)
  {
    ConvSwap(a, b, k, k + 1);
    ConvSplit(a, b, k, 0);
    GF.AddLaws(GF.Zero, ConvFrom(a, b, k, 0), GF.Zero);
  }

  /** Polynomial multiplication is commutative. */
  lemma MultiplyCommutative(a: Poly, b: Poly)
    ensures Multiply(a, b) == Multiply(b, a)
  {
    forall k: nat
      ensures Coef(Multiply(a, b), k) == Coef(Multiply(b, a), k)
    {
      ProductCoefSwap(a, b, k);
    }
    NormalisedUnique(Multiply(a, b), Multiply(b, a));
  }

  /** Multiplying by the empty polynomial, on either side, gives the empty
      polynomial. */
  lemma MultiplyEmpty(a: Poly)
    ensures Multiply(a, []) == [] && Multiply([], a) == []
  {
    forall k: nat
      ensures Coef(Multiply(a, []), k) == Coef([], k)
    {
      ProductByZero(a, [], k);
    }
    NormalisedUnique(Multiply(a, []), []);
    MultiplyCommutative(a, []);
  }

  /** Multiplying by term * x^degree shifts the coefficients up by degree
      and scales them by term. */
  lemma ProductMonomial(a: Poly, term: GF.Element, degree: nat, k: nat)
    ensures ProductCoef(a, Monomial(term, degree), k)
      == if k >= degree then GF.Multiply(Coef(a, k - degree), term) else GF.Zero
  {
    var m := Monomial(term, degree);
    if k >= degree {
      forall i | 0 <= i <= k && i != k - degree
        ensures Term(a, m, k, i) == GF.Zero
      {
        GF.MultiplyZero(Coef(a, i));
      }
      ConvSingle(a, m, k, 0, k - degree);
    } else {
      forall i | 0 <= i <= k && i != k
        ensures Term(a, m, k, i) == GF.Zero
      {
        GF.MultiplyZero(Coef(a, i));
      }
      GF.MultiplyZero(Coef(a, k));
      ConvSingle(a, m, k, 0, k);
    }
  }

  /** Multiplying by x^n moves coefficient i to x^(i+n) and leaves zeros
      below x^n. */
  lemma ShiftCoef(p: Poly, n: nat, k: nat)
    ensures Coef(Multiply(p, Monomial(GF.One, n)), k) == if k >= n then Coef(p, k - n) else GF.Zero
  {
    ProductMonomial(p, GF.One, n, k);
    if k >= n {
      GF.MultiplyOne(Coef(p, k - n));
    }
  }

  /** Multiplying by a polynomial whose coefficients are all zero gives
      zero coefficients. */
  lemma ProductByZero(a: Poly, b: Poly, k: nat)
    requires forall x: nat :: Coef(b, x) == GF.Zero
    ensures ProductCoef(a, b, k) == GF.Zero
  {
    forall i | 0 <= i <= k
      ensures Term(a, b, k, i) == GF.Zero
    {
      GF.MultiplyZero(Coef(a, i));
    }
    ConvSingle(a, b, k, 0, k);
  }

  /** A normalised polynomial has no more terms than the index from which
      its coefficients vanish. */
  lemma NormalisedLength(p: Poly, n: nat)
    requires IsNormalised(p)
    requires forall k: nat :: k >= n ==> Coef(p, k) == GF.Zero
    ensures |p| <= n
  {
    if |p| > 0 {
      assert p[|p| - 1] == Coef(p, |p| - 1);
    }
  }

  /** A contribution vanishes when either factor lies past its
      polynomial's terms. */
  lemma TermZero(a: Poly, b: Poly, k: nat, m: nat)
    requires m <= k && (m >= |a| || k - m >= |b|)
    ensures Term(a, b, k, m) == GF.Zero
  {
    GF.MultiplyZero(Coef(a, m));
    GF.MultiplyZero(Coef(b, k - m));
  }

  /** The coefficient of a product of nonzero normalised polynomials at
      |a| + |b| - 2 is the product of their highest terms. */
  lemma ProductTop(a: Poly, b: Poly)
    requires IsNormalised(a) && IsNormalised(b) && |a| > 0 && |b| > 0
    ensures ProductCoef(a, b, |a| + |b| - 2) == GF.Multiply(a[|a| - 1], b[|b| - 1])
  {
    var k, t := |a| + |b| - 2, |a| - 1;
    forall m | 0 <= m <= k && m != t
      ensures Term(a, b, k, m) == GF.Zero
    {
      TermZero(a, b, k, m);
    }
    ConvSingle(a, b, k, 0, t);
  }

  /** Every coefficient of a product above |a| + |b| - 2 is zero. */
  lemma ProductAbove(a: Poly, b: Poly, k: nat)
    requires k > |a| + |b| - 2
    ensures ProductCoef(a, b, k) == GF.Zero
  {
    forall m | 0 <= m <= k
      ensures Term(a, b, k, m) == GF.Zero
    {
      TermZero(a, b, k, m);
    }
    ConvSingle(a, b, k, 0, k);
  }

  /** A product of nonzero normalised polynomials has |a| + |b| - 1 terms
      and the product of their highest terms as its highest term. */
  lemma ProductDegree(a: Poly, b: Poly)
    requires IsNormalised(a) && IsNormalised(b) && |a| > 0 && |b| > 0
    ensures |Multiply(a, b)| == |a| + |b| - 1
    ensures Multiply(a, b)[|a| + |b| - 2] == GF.Multiply(a[|a| - 1], b[|b| - 1])
  {
    var r := Multiply(a, b);
    var top := |a| + |b| - 2;
    forall k: nat | k >= top + 1
      ensures Coef(r, k) == GF.Zero
    {
      ProductAbove(a, b, k);
    }
    NormalisedLength(r, top + 1);
    ProductTop(a, b);
    ProductNonzero(a, b);
  }

  /** A nonzero normalised b makes the product's coefficient at
      |a| + |b| - 2 nonzero. */
  lemma ProductNonzero(a: Poly, b: Poly)
    requires IsNormalised(a) && IsNormalised(b) && |a| > 0
    ensures |b| > 0 ==> ProductCoef(a, b, |a| + |b| - 2) != GF.Zero
  {
    if |b| > 0 {
      var v := ProductCoef(a, b, |a| + |b| - 2);
      ProductTop(a, b);
      NonzeroProduct(a[|a| - 1], b[|b| - 1], v);
    }
  }

  lemma NonzeroProduct(x: GF.Element, y: GF.Element, v: GF.Element)
    requires x != GF.Zero && y != GF.Zero && v == GF.Multiply(x, y)
    ensures v != GF.Zero
  {
    GF.NoZeroDivisors(x, y);
  }

  /** One step of long division: subtracts den * (c x^d), where c x^d makes
      the product's highest term match num's, and so cancels that term. */
  function ReduceStep(num: Poly, den: Poly): (r: Poly)
    requires IsNormalised(den) && 0 < |den| <= |num|
    ensures |r| < |num|
  {
    var c := GF.Divide(num[|num| - 1], den[|den| - 1]);
    var d := |num| - |den|;
    var r := Add(num, Multiply(den, Monomial(c, d)));
    forall k: nat | k >= |num| - 1
      ensures Coef(r, k) == GF.Zero
    {
      ProductMonomial(den, c, d, k);
      if k == |num| - 1 {
        CancelLead(num[|num| - 1], den[|den| - 1], c);
      } else {
        ZeroTerm(c);
      }
    }
    NormalisedLength(r, |num| - 1);
    r
  }

  /** x + y * (x / y) = 0: the step's product cancels the leading term. */
  lemma CancelLead(x: GF.Element, y: GF.Element, c: GF.Element)
    requires y != GF.Zero && c == GF.Divide(x, y)
    ensures GF.Add(x, GF.Multiply(y, c)) == GF.Zero
  {
    GF.MultiplyCommutative(c, y);
    GF.AddLaws(x, x, x);
  }

  lemma ZeroTerm(c: GF.Element)
    ensures GF.Add(GF.Zero, GF.Multiply(GF.Zero, c)) == GF.Zero
  {
    GF.MultiplyZero(c);
  }

  /** The monomial quotient term of one long division step. */
  function StepQuotient(num: Poly, den: Poly): Poly
    requires IsNormalised(den) && 0 < |den| <= |num|
  {
    Monomial(GF.Divide(num[|num| - 1], den[|den| - 1]), |num| - |den|)
  }

  /** The remainder of num / den by long division: while the remainder has
      at least as many terms as den, cancel its highest term.  The library
      stops with a fatal error when den is zero, and its field division
      needs den's highest term to be nonzero, so den is a nonzero
      normalised polynomial. */
  function Remainder(num: Poly, den: Poly): (r: Poly)
    requires IsNormalised(den) && |den| > 0
    ensures IsNormalised(r) && |r| < |den|
    decreases |num|
  {
    if |num| < |den| then
      NormalisedLength(Normalised(num), |den| - 1);
      Normalised(num)
    else Remainder(ReduceStep(num, den), den)
  }

  /** The quotient of num / den, a proof device: the sum of the monomials
      c x^d that the division steps multiply den by.  The library builds
      each of them once and discards it; it never sums them. */
  function Quotient(num: Poly, den: Poly): Poly
    requires IsNormalised(den) && |den| > 0
    decreases |num|
  {
    if |num| < |den| then []
    else Add(Quotient(ReduceStep(num, den), den), StepQuotient(num, den))
  }

  /** Coefficient form of the division identity. */
  lemma {:induction false} DivisionCoef(num: Poly, den: Poly, k: nat)
    requires IsNormalised(den) && |den| > 0
    ensures Coef(num, k)
      == GF.Add(ProductCoef(den, Quotient(num, den), k), Coef(Remainder(num, den), k))
    decreases |num|
  {
    if |num| < |den| {
      ProductByZero(den, [], k);
      NormalisedCoef(num);
      GF.AddLaws(Coef(num, k), GF.Zero, GF.Zero);
    } else {
      var next := ReduceStep(num, den);
      var m := StepQuotient(num, den);
      DivisionCoef(next, den, k);
      ConvLinear(den, Quotient(next, den), m, Quotient(num, den), k, 0);
      Rearrange(Coef(num, k), Coef(next, k), ProductCoef(den, Quotient(next, den), k),
        ProductCoef(den, m, k), Coef(Remainder(num, den), k));
    }
  }

  lemma Rearrange(n: GF.Element, n': GF.Element, q: GF.Element, m: GF.Element, r: GF.Element)
    requires n' == GF.Add(n, m) && n' == GF.Add(q, r)
    ensures n == GF.Add(GF.Add(q, m), r)
  {
    // n = n' + m, and (q + r) + (m + 0) = (q + m) + (r + 0)
    GF.AddLaws(n, m, m);
    GF.AddLaws(m, GF.Zero, GF.Zero);
    GF.AddLaws(r, GF.Zero, GF.Zero);
    GF.AddInterchange(q, r, m, GF.Zero);
  }

  /** The division identity: num = den * quotient + remainder. */
  lemma DivisionIdentity(num: Poly, den: Poly)
    requires IsNormalised(den) && |den| > 0
    ensures Add(Multiply(den, Quotient(num, den)), Remainder(num, den)) == Normalised(num)
  {
    forall k: nat
      ensures Coef(Add(Multiply(den, Quotient(num, den)), Remainder(num, den)), k) == Coef(num, k)
    {
      DivisionCoef(num, den, k);
    }
    NormalisedSame(Add(Multiply(den, Quotient(num, den)), Remainder(num, den)), num);
  }

  /** The remainder is the only normalised polynomial shorter than den that
      differs from num by a multiple of den. */
  lemma RemainderUnique(num: Poly, den: Poly, q: Poly, r: Poly)
    requires IsNormalised(den) && |den| > 0
    requires IsNormalised(r) && |r| < |den|
    requires forall k: nat :: Coef(num, k) == GF.Add(ProductCoef(den, q, k), Coef(r, k))
    ensures Remainder(num, den) == r
  {
    var q' := Quotient(num, den);
    var r' := Remainder(num, den);
    var d := Add(q, q');
    forall k: nat
      ensures ProductCoef(den, d, k) == GF.Add(Coef(r, k), Coef(r', k))
    {
      DivisionCoef(num, den, k);
      ConvLinear(den, q, q', d, k, 0);
      Cancel(Coef(num, k), ProductCoef(den, q, k), Coef(r, k), ProductCoef(den, q', k), Coef(r', k));
    }
    ProductNonzero(den, d);
    assert |d| == 0;
    forall k: nat
      ensures Coef(r, k) == Coef(r', k)
    {
      ProductByZero(den, d, k);
      GF.AddLaws(Coef(r, k), Coef(r', k), GF.Zero);
    }
    NormalisedUnique(r, r');
  }

  lemma Cancel(n: GF.Element, p: GF.Element, r: GF.Element, p': GF.Element, r': GF.Element)
    requires n == GF.Add(p, r) && n == GF.Add(p', r')
    ensures GF.Add(p, p') == GF.Add(r, r')
  {
    // (p + r) + (p' + r') = n + n = 0, and a sum is zero only of equal terms
    GF.AddInterchange(p, r, p', r');
    GF.AddLaws(n, n, n);
    var u, v := GF.Add(p, p'), GF.Add(r, r');
    GF.AddLaws(u, v, v);
    GF.AddLaws(v, GF.Zero, GF.Zero);
    GF.AddLaws(GF.Zero, v, GF.Zero);
  }

  /** A nonzero polynomial divided by itself leaves no remainder. */
  lemma RemainderSelf(a: Poly)
    requires IsNormalised(a) && |a| > 0
    ensures Remainder(a, a) == []
  {
    var one := Monomial(GF.One, 0);
    forall k: nat
      ensures Coef(a, k) == GF.Add(ProductCoef(a, one, k), Coef([], k))
    {
      TimesOneCoef(a, one, k);
    }
    RemainderUnique(a, a, one, []);
  }

  lemma TimesOneCoef(a: Poly, one: Poly, k: nat)
    requires one == Monomial(GF.One, 0)
    ensures Coef(a, k) == GF.Add(ProductCoef(a, one, k), Coef([], k))
  {
    ShiftCoef(a, 0, k);
    GF.AddLaws(Coef(a, k), GF.Zero, GF.Zero);
  }

  /** The bytes of bits from index j on, eight bits each; a shorter final
      group is one more byte. */
  function ReadBytes(bits: seq<bool>, j: nat): (r: seq<Bitset.Byte>)
    requires j < |bits|
    ensures 8 * (|r| - 1) < |bits| - j <= 8 * |r|
    ensures forall m :: 0 <= m < |r| ==> r[m] == Bitset.ByteAt(bits, j + 8 * m)
    decreases |bits| - j
  {
    if |bits| - j <= 8 then [Bitset.ByteAt(bits, j)]
    else [Bitset.ByteAt(bits, j)] + ReadBytes(bits, j + 8)
  }

  /** The polynomial of a bit sequence: one term per (possibly partial)
      byte, the first byte as the highest term and the last as the x^0
      term. */
  function FromData(bits: seq<bool>): (r: Poly)
    ensures 8 * (|r| - 1) < |bits| <= 8 * |r|
    ensures forall i :: 0 <= i < |r| ==> r[i] == Bitset.ByteAt(bits, 8 * (|r| - 1 - i))
  {
    if |bits| == 0 then [] else Reverse(ReadBytes(bits, 0))
  }

  /** Term i of FromData(bits) is the byte at bit offset
      8 * (terms - 1 - i). */
  lemma FromDataAt(bits: seq<bool>, i: nat, offset: nat)
    requires i < |FromData(bits)| && offset == 8 * (|FromData(bits)| - 1 - i)
    ensures offset < |bits| && FromData(bits)[i] == Bitset.ByteAt(bits, offset)
  {
  }

  /** Whole bytes give one term each. */
  lemma FromDataLength(bits: seq<bool>, n: nat)
    requires |bits| == 8 * n
    ensures |FromData(bits)| == n
  {
  }

  /** Below x^|ec| the polynomial of data followed by bytes ec holds ec,
      last byte lowest. */
  lemma AppendedLow(data: seq<bool>, ec: seq<Bitset.Byte>, dataBytes: nat, k: nat)
    requires |data| == 8 * dataBytes && k < |ec|
    ensures |FromData(Bitset.AppendBytes(data, ec))| == dataBytes + |ec|
    ensures FromData(Bitset.AppendBytes(data, ec))[k] == ec[|ec| - 1 - k]
  {
    var code := Bitset.AppendBytes(data, ec);
    var n := dataBytes + |ec|;
    FromDataLength(code, n);
    var m := |ec| - 1 - k;
    var offset := |data| + 8 * m;
    FromDataAt(code, k, offset);
    Bitset.ByteAtAppended(data, ec, m, offset);
  }

  /** From x^|ec| up it holds the data polynomial. */
  lemma AppendedHigh(data: seq<bool>, ec: seq<Bitset.Byte>, dataBytes: nat, k: nat)
    requires |data| == 8 * dataBytes && |ec| <= k < dataBytes + |ec|
    ensures |FromData(data)| == dataBytes
    ensures |FromData(Bitset.AppendBytes(data, ec))| == dataBytes + |ec|
    ensures FromData(Bitset.AppendBytes(data, ec))[k] == FromData(data)[k - |ec|]
  {
    var tail := Bitset.BytesToBits(ec);
    var code := Bitset.AppendBytes(data, ec);
    assert code == data + tail;
    FromDataLength(data, dataBytes);
    FromDataLength(code, dataBytes + |ec|);
    var m := dataBytes + |ec| - 1 - k;
    var offset := 8 * m;
    FromDataAt(code, k, offset);
    FromDataAt(data, k - |ec|, offset);
    Bitset.ByteAtPrefix(data, tail, offset);
  }

  /** Appending bytes ec to whole-byte data shifts the data polynomial up
      by |ec| terms and puts ec, last byte lowest, beneath it. */
  lemma AppendedCoef(data: seq<bool>, ec: seq<Bitset.Byte>, dataBytes: nat, k: nat)
    requires |data| == 8 * dataBytes
    ensures Coef(FromData(Bitset.AppendBytes(data, ec)), k)
      == if k < |ec| then ec[|ec| - 1 - k] else Coef(FromData(data), k - |ec|)
  {
    if k < |ec| {
      AppendedLow(data, ec, dataBytes, k);
    } else if k < dataBytes + |ec| {
      AppendedHigh(data, ec, dataBytes, k);
    } else {
      FromDataLength(data, dataBytes);
      FromDataLength(Bitset.AppendBytes(data, ec), dataBytes + |ec|);
    }
  }

  /** Whole-byte data followed by the bytes ec of r, highest term first,
      reads back as the data polynomial times x^|ec| plus r, term by
      term. */
  lemma AppendedSumCoef(data: seq<bool>, dataBytes: nat, r: Poly, ec: seq<Bitset.Byte>, k: nat)
    requires |data| == 8 * dataBytes && |r| <= |ec|
    requires forall i :: 0 <= i < |ec| ==> ec[i] == Coef(r, |ec| - 1 - i)
    ensures Coef(FromData(Bitset.AppendBytes(data, ec)), k)
      == GF.Add(Coef(Multiply(FromData(data), Monomial(GF.One, |ec|)), k), Coef(r, k))
  {
    var p := FromData(data);
    AppendedCoef(data, ec, dataBytes, k);
    ShiftCoef(p, |ec|, k);
    if k < |ec| {
      var i := |ec| - 1 - k;
      assert ec[i] == Coef(r, |ec| - 1 - i);
      GF.AddLaws(GF.Zero, Coef(r, k), GF.Zero);
    } else {
      GF.AddLaws(Coef(p, k - |ec|), GF.Zero, GF.Zero);
    }
  }

  /** The bytes of r as laid out by Data, in the form the reading lemmas
      take. */
  lemma DataLayout(r: Poly, numTerms: nat, ec: seq<Bitset.Byte>)
    requires |r| <= numTerms && ec == Data(r, numTerms)
    ensures |r| <= |ec| == numTerms
    ensures forall i :: 0 <= i < |ec| ==> ec[i] == Coef(r, |ec| - 1 - i)
  {
  }

  /** Reading back bytes written MSB first gives them in reverse, lowest
      term first. */
  lemma FromDataBytes(bytes: seq<Bitset.Byte>)
    ensures FromData(Bitset.BytesToBits(bytes)) == Reverse(bytes)
  {
    var bits := Bitset.AppendBytes([], bytes);
    assert bits == Bitset.BytesToBits(bytes);
    forall i | 0 <= i < |bytes|
      ensures FromData(bits)[i] == Reverse(bytes)[i]
    {
      AppendedLow([], bytes, 0, i);
    }
  }

  /** Writing a polynomial out as numTerms bytes and reading it back gives
      the same polynomial. */
  lemma DataRoundTrip(p: Poly, numTerms: nat)
    requires |p| <= numTerms
    ensures Normalised(FromData(Bitset.BytesToBits(Data(p, numTerms)))) == Normalised(p)
  {
    var d := Data(p, numTerms);
    FromDataBytes(d);
    ReverseData(p, numTerms, d);
    NormalisedSame(Reverse(d), p);
  }

  /** The bytes of Data, lowest term first, are the polynomial's
      coefficients. */
  lemma ReverseData(p: Poly, numTerms: nat, d: seq<GF.Element>)
    requires |p| <= numTerms && d == Data(p, numTerms)
    ensures forall k: nat :: Coef(Reverse(d), k) == Coef(p, k)
  {
    var q := Reverse(d);
    forall k: nat
      ensures Coef(q, k) == Coef(p, k)
    {
      if k < numTerms {
        var i := numTerms - 1 - k;
        assert q[k] == d[i];
        assert d[i] == Coef(p, numTerms - 1 - i);
      }
    }
  }
}

=== FILE: reed_solomon.dfy ===
/**
 Reed-Solomon error correction coding for QR Code 2005 (section 6.5.2 of
 ISO/IEC 18004).  The data bytes are the coefficients of a polynomial, first
 byte highest; the error correction bytes are the remainder of that
 polynomial times x^n divided by the degree-n generator polynomial
 (x + a^0)(x + a^1)...(x + a^(n-1)).  The code is systematic: the codeword
 is the data followed by the n error correction bytes.
 */
module ReedSolomon {
  import GF
  import GFPoly
  import Bitset

  type Poly = GFPoly.Poly

  /** The value at x of the terms from i on, divided by x^i: Horner's rule. */
  function EvalFrom(p: Poly, x: GF.Element, i: nat): GF.Element
    decreases |p| - i
  {
    if i >= |p| then GF.Zero else GF.Add(p[i], GF.Multiply(x, EvalFrom(p, x, i + 1)))
  }

  /** The value of p at x. */
  function Eval(p: Poly, x: GF.Element): GF.Element
  {
    EvalFrom(p, x, 0)
  }

  /** The linear factor x + c, as the generator loop builds it. */
  function Factor(c: GF.Element): Poly
  {
    [c, GF.One]
  }

  /** The coefficients of p * (x + c): c p_k + p_(k-1). */
  lemma FactorCoef(p: Poly, c: GF.Element, k: nat)
    ensures GFPoly.ProductCoef(p, Factor(c), k)
      == GF.Add(GF.Multiply(GFPoly.Coef(p, k), c), if k > 0 then GFPoly.Coef(p, k - 1) else GF.Zero)
  {
    var low, high := GFPoly.Monomial(c, 0), GFPoly.Monomial(GF.One, 1);
    forall x: nat
      ensures GFPoly.Coef(Factor(c), x) == GF.Add(GFPoly.Coef(low, x), GFPoly.Coef(high, x))
    {
      GF.AddLaws(c, GF.Zero, GF.Zero);
      GF.AddLaws(GF.Zero, GF.One, GF.Zero);
    }
    GFPoly.ConvLinear(p, low, high, Factor(c), k, 0);
    GFPoly.ProductMonomial(p, c, 0, k);
    GFPoly.ProductMonomial(p, GF.One, 1, k);
    if k > 0 {
      GF.MultiplyOne(GFPoly.Coef(p, k - 1));
    }
  }

  /** Horner's rule read through Coef, also one past the last term. */
  lemma EvalStep(p: Poly, x: GF.Element, i: nat)
    requires i <= |p|
    ensures EvalFrom(p, x, i) == GF.Add(GFPoly.Coef(p, i), GF.Multiply(x, EvalFrom(p, x, i + 1)))
  {
    if i == |p| {
      GF.MultiplyZero(x);
      GF.AddLaws(GF.Zero, GF.Zero, GF.Zero);
    }
  }

  /** Evaluating p * (x + c) from term i on, for nonzero normalised p. */
  lemma {:induction false} EvalFactorFrom(p: Poly, c: GF.Element, x: GF.Element, q: Poly, i: nat)
    requires GFPoly.IsNormalised(p) && |p| > 0
    requires q == GFPoly.Multiply(p, Factor(c))
    requires i <= |p| + 1
    ensures EvalFrom(q, x, i)
      == GF.Add(GF.Multiply(GF.Add(x, c), EvalFrom(p, x, i)), if i > 0 then GFPoly.Coef(p, i - 1) else GF.Zero)
    decreases |p| + 1 - i
  {
    GFPoly.ProductDegree(p, Factor(c));
    var prev := if i > 0 then GFPoly.Coef(p, i - 1) else GF.Zero;
    if i == |p| + 1 {
      GF.MultiplyZero(GF.Add(x, c));
      GF.AddLaws(GF.Zero, GF.Zero, GF.Zero);
    } else {
      EvalFactorFrom(p, c, x, q, i + 1);
      EvalStep(q, x, i);
      EvalStep(p, x, i);
      FactorCoef(p, c, i);
      HornerAlgebra(x, c, GFPoly.Coef(p, i), prev, EvalFrom(p, x, i + 1));
    }
  }

  /** The field identity behind one Horner step of p * (x + c). */
  lemma HornerAlgebra(x: GF.Element, c: GF.Element, pi: GF.Element, prev: GF.Element, s: GF.Element)
    ensures GF.Add(GF.Add(GF.Multiply(pi, c), prev),
                   GF.Multiply(x, GF.Add(GF.Multiply(GF.Add(x, c), s), pi)))
         == GF.Add(GF.Multiply(GF.Add(x, c), GF.Add(pi, GF.Multiply(x, s))), prev)
  {
    var u := GF.Add(x, c);
    var a := GF.Multiply(pi, c);
    var b := GF.Multiply(x, GF.Multiply(u, s));
    var e := GF.Multiply(x, pi);
    var d := GF.Multiply(u, GF.Multiply(x, s));
    // x (u s + p_i) = x u s + x p_i
    GF.MultiplyDistributes(x, GF.Multiply(u, s), pi);
    // u (p_i + x s) = u p_i + u x s
    GF.MultiplyDistributes(u, pi, GF.Multiply(x, s));
    // u p_i = p_i x + p_i c = x p_i + p_i c
    GF.MultiplyCommutative(u, pi);
    GF.MultiplyDistributes(pi, x, c);
    GF.MultiplyCommutative(pi, x);
    // x (u s) = u (x s)
    GF.MultiplyAssociative(x, u, s);
    GF.MultiplyAssociative(u, x, s);
    GF.MultiplyCommutative(x, u);
    XorRearrange(a, prev, b, e, d);
  }

  lemma XorRearrange(a: GF.Element, m: GF.Element, b: GF.Element, e: GF.Element, d: GF.Element)
    requires b == d
    ensures GF.Add(GF.Add(a, m), GF.Add(b, e)) == GF.Add(GF.Add(GF.Add(e, a), d), m)
  {
    // (a + m) + (e + b) = (a + e) + (m + b), then regroup ((e + a) + d) + m
    GF.AddLaws(b, e, GF.Zero);
    GF.AddInterchange(a, m, e, b);
    GF.AddLaws(a, e, GF.Zero);
    GF.AddLaws(m, b, GF.Zero);
    GF.AddLaws(GF.Add(e, a), d, m);
  }

  /** Evaluation turns multiplication by x + c into multiplication by the
      value of x + c. */
  lemma EvalFactor(p: Poly, c: GF.Element, x: GF.Element)
    requires GFPoly.IsNormalised(p) && |p| > 0
    ensures Eval(GFPoly.Multiply(p, Factor(c)), x) == GF.Multiply(GF.Add(x, c), Eval(p, x))
  {
    EvalFactorFrom(p, c, x, GFPoly.Multiply(p, Factor(c)), 0);
    GF.AddLaws(GF.Multiply(GF.Add(x, c), Eval(p, x)), GF.Zero, GF.Zero);
  }

  /** The generator loop's invariant: g has i + 1 terms, leading term 1,
      and vanishes at a^0 .. a^(i-1). */
  predicate GeneratorInvariant(g: Poly, i: nat)
  {
    GFPoly.IsNormalised(g) && |g| == i + 1 && g[i] == GF.One
      && forall j :: 0 <= j < i ==> Eval(g, GF.Exp(j)) == GF.Zero
  }

  /** Multiplying by x + a^i keeps the invariant with one more root. */
  lemma GeneratorStep(g: Poly, i: nat)
    requires GeneratorInvariant(g, i)
    ensures GeneratorInvariant(GFPoly.Multiply(g, Factor(GF.Exp(i))), i + 1)
  {
    var c := GF.Exp(i);
    var next := GFPoly.Multiply(g, Factor(c));
    GFPoly.ProductDegree(g, Factor(c));
    GF.MultiplyOne(GF.One);
    forall j | 0 <= j < i + 1
      ensures Eval(next, GF.Exp(j)) == GF.Zero
    {
      var x := GF.Exp(j);
      EvalFactor(g, c, x);
      GF.MultiplyZero(GF.Add(x, c));
      GF.MultiplyZero(Eval(g, x));
      GF.AddLaws(x, x, x);
    }
  }

  /** The generator loop from factor i on. */
  function GeneratorFrom(degree: nat, i: nat, g: Poly): (r: Poly)
    requires i <= degree && GeneratorInvariant(g, i)
    ensures GeneratorInvariant(r, degree)
    decreases degree - i
  {
    if i == degree then g
    else
      GeneratorStep(g, i);
      GeneratorFrom(degree, i + 1, GFPoly.Multiply(g, Factor(GF.Exp(i))))
  }

  /** The generator polynomial (x + a^0)(x + a^1)...(x + a^(degree-1)):
      degree + 1 terms, leading term 1, and a root at each a^j for
      j < degree.  The library stops with a fatal error for degree < 2. */
  function GeneratorPoly(degree: nat): (g: Poly)
    requires degree >= 2
    ensures GFPoly.IsNormalised(g) && |g| == degree + 1 && g[degree] == GF.One
    ensures forall j :: 0 <= j < degree ==> Eval(g, GF.Exp(j)) == GF.Zero
  {
    GeneratorFrom(degree, 0, [GF.One])
  }

  /** The data polynomial times x^numECBytes. */
  function Shifted(data: seq<bool>, numECBytes: nat): Poly
  {
    GFPoly.Multiply(GFPoly.FromData(data), GFPoly.Monomial(GF.One, numECBytes))
  }

  /** The remainder that gives the error correction bytes. */
  function ECRemainder(data: seq<bool>, numECBytes: nat): (r: Poly)
    requires numECBytes >= 2
    ensures |r| <= numECBytes
  {
    GFPoly.Remainder(Shifted(data, numECBytes), GeneratorPoly(numECBytes))
  }

  /** The numECBytes error correction bytes, highest term first. */
  function ECBytes(data: seq<bool>, numECBytes: nat): seq<Bitset.Byte>
    requires numECBytes >= 2
  {
    GFPoly.Data(ECRemainder(data, numECBytes), numECBytes)
  }

  /** The codeword: the data bits unchanged, then the error correction
      bytes. */
  function Encode(data: seq<bool>, numECBytes: nat): (r: seq<bool>)
    requires numECBytes >= 2
    ensures |r| == |data| + 8 * numECBytes
    ensures r[..|data|] == data
  {
    Bitset.AppendBytes(data, ECBytes(data, numECBytes))
  }

  /** The k-th error correction byte of the codeword is the remainder's
      coefficient of x^(numECBytes-1-k). */
  lemma EncodeECByte(data: seq<bool>, numECBytes: nat, k: nat)
    requires numECBytes >= 2 && k < numECBytes
    ensures Bitset.ByteAt(Encode(data, numECBytes), |data| + 8 * k)
      == GFPoly.Coef(ECRemainder(data, numECBytes), numECBytes - 1 - k)
  {
    var ec := ECBytes(data, numECBytes);
    assert Bitset.ByteAt(Bitset.AppendBytes(data, ec), |data| + 8 * k) == ec[k];
  }

  /** For byte-aligned data, the codeword's polynomial has the shifted
      data polynomial's coefficients from x^numECBytes up and the
      remainder's below. */
  lemma CodewordCoef(data: seq<bool>, numECBytes: nat, k: nat)
    requires numECBytes >= 2 && |data| % 8 == 0
    ensures GFPoly.Coef(GFPoly.FromData(Encode(data, numECBytes)), k)
      == GF.Add(GFPoly.Coef(Shifted(data, numECBytes), k), GFPoly.Coef(ECRemainder(data, numECBytes), k))
  {
    var r := ECRemainder(data, numECBytes);
    var ec := GFPoly.Data(r, numECBytes);
    assert Encode(data, numECBytes) == Bitset.AppendBytes(data, ec);
    GFPoly.DataLayout(r, numECBytes, ec);
    GFPoly.AppendedSumCoef(data, |data| / 8, r, ec, k);
  }

  /** The codeword is the mathematically expected one: the shifted data
      polynomial plus the remainder, its terms written out in full. */
  lemma EncodeIsPolynomialSum(data: seq<bool>, numECBytes: nat)
    requires numECBytes >= 2 && |data| % 8 == 0
    ensures GFPoly.Normalised(GFPoly.FromData(Encode(data, numECBytes)))
      == GFPoly.Add(Shifted(data, numECBytes), ECRemainder(data, numECBytes))
  {
    var c := GFPoly.FromData(Encode(data, numECBytes));
    var sum := GFPoly.Add(Shifted(data, numECBytes), ECRemainder(data, numECBytes));
    forall k: nat
      ensures GFPoly.Coef(c, k) == GFPoly.Coef(sum, k)
    {
      CodewordCoef(data, numECBytes, k);
    }
    GFPoly.NormalisedSame(c, sum);
  }

  /** The codeword polynomial is a multiple of the generator: dividing it
      by the generator leaves no remainder. */
  lemma EncodeDivisible(data: seq<bool>, numECBytes: nat)
    requires numECBytes >= 2 && |data| % 8 == 0
    ensures GFPoly.Remainder(GFPoly.FromData(Encode(data, numECBytes)), GeneratorPoly(numECBytes)) == []
  {
    var n := numECBytes;
    var g := GeneratorPoly(n);
    var shifted := Shifted(data, n);
    var q := GFPoly.Quotient(shifted, g);
    var r := ECRemainder(data, n);
    var c := GFPoly.FromData(Encode(data, n));
    forall k: nat
      ensures GFPoly.Coef(c, k) == GF.Add(GFPoly.ProductCoef(g, q, k), GFPoly.Coef([], k))
    {
      CodewordCoef(data, n, k);
      GFPoly.DivisionCoef(shifted, g, k);
      CancelRemainder(GFPoly.Coef(c, k), GFPoly.Coef(shifted, k), GFPoly.ProductCoef(g, q, k), GFPoly.Coef(r, k));
    }
    GFPoly.RemainderUnique(c, g, q, []);
  }

  lemma CancelRemainder(c: GF.Element, s: GF.Element, p: GF.Element, r: GF.Element)
    requires c == GF.Add(s, r) && s == GF.Add(p, r)
    ensures c == GF.Add(p, GF.Zero)
  {
    GF.AddLaws(p, r, r);
  }
}
